=== FILE: README.md ===
# Docking script decision core

A Dafny model of the decision logic in the Selenium script that docks the
SpaceX ISS simulator (`DockingPage.java`). The script reads the angle and
distance labels of the page and clicks translation and rotation buttons
until every error reads exactly zero and the spacecraft is within 0.4 m of
the port. The model keeps every decision the script takes and replaces the
browser with two abstract pieces:

- a **sensor** (`Session.Sensor`): a finite stream of numeric answers, one
  per label read whatever the channel, plus a finite stream of class
  attributes of the precision-status element. A read past the end of a
  stream stands for the script's uncaught lookup or parse failure, which
  ends the whole procedure (`Run.ok == false`);
- a **trace** (`Traces.Event`): every reading and status observation the
  script made, and every click (`Press`), settle wait (`Sleep`) and
  precision toggle (`Toggle`) it issued, in order.

Every procedure is a total function of the sensor. It returns a `Run`: a
normal-end flag, the sensor left over, and the trace. A loop that the live
page might keep running forever is cut off here by the end of the sensor.
The contracts state what holds for every sensor: which readings were
consumed, which buttons were pressed, that bursts are balanced, and on what
reading each loop is left.

Modules, in dependency order:

- `Traces`: events, and the readings, statuses and last read of a trace.
- `Session`: the sensor, runs, and `Consumed` (the trace's observations
  are exactly the answers given).
- `Controls`: the six docking controls, their button selectors and the
  lookup table (`DockingControl.java`, and the static table of
  `DockingPage.java`).
- `Text`: `String.replace` with an empty replacement, the unit stripping
  of `getValue`, and `equalsIgnoreCase`.
- `Rules`: the per-reading decisions. These are the equalized test, the
  direction, the pulse tiers, the settle times, the precision mode and
  toggle rule, and the approach bands.
- `Equalizer`: `pressButton`, `equalizeRightControl`,
  `equalizeAxisControl` and `equalizeControls`.
- `Sequencer`: the rate-correction loops, the approach loop and
  `startDockingProcess`.

## Behaviour worth knowing

- An equalize pass reads its control twice. The loop guard (`isEqualized`) reads it once, and the burst is sized from a second, fresh read.
- The pitch/yaw loop tests its guard before the first round. Pitch is read first, and yaw is read only when pitch read 0, because `||` short-circuits.
- The approach loop tests the x value read in the previous iteration. The body reads x afresh and runs to its end even when that fresh read is already within 0.4, and only the next test of the condition leaves the loop (`OneMoreIteration`).
- The precision check strips "noselect" from the class attribute of the status element and compares the rest with the required mode, ignoring case.
- When the rate read after a correction press fails, that press has already happened, so the failed run's trace ends with the press.

## Model

Helpers without a contract of their own are covered by the rows of the
members about them: `Rules.PrecisionStatus` and `Rules.NeedsToggle` by
`Rules.MatchingStatusIsNotToggled`, `Rules.SpacedClassListIsToggled` and
`Equalizer.TranslationalStep`; `Rules.RotationalSettle` and
`Rules.TranslationalSettle` by `Rules.SettleFormulas` and the two settle-bound
rows; `Text.StripUnits` by the three `Text.StripUnits…` rows;
`Sequencer.KeepsCorrecting` by `Sequencer.Correct`; `Rules.IncreaseFirst` by
`Equalizer.RotationalStep` and `Equalizer.TranslationalStep`;
`Rules.IsEqualized` by `Rules.IsEqualizedExactlyAtZero`;
`Rules.TerminalThrust` by `Rules.TerminalThrustIsNear` and
`Sequencer.ThrustPress`; `Text.EqualsIgnoreCase` by
`Text.EqualsIgnoreCaseProperties` and `Rules.MatchingStatusIsNotToggled`.

| member | source | states |
|---|---|---|
| Controls.RegistryWellFormed | src/main/java/com/testninja/spacex/DockingPage.java:22-31 | each control in the lookup table is filed under its own name, its two buttons differ, and "rate" is not a control |
| Controls.RegistryButtonsDisjoint | src/main/java/com/testninja/spacex/DockingPage.java:23-30 | no selector belongs to two controls |
| Controls.ForwardButtonsApart | src/main/java/com/testninja/spacex/DockingPage.java:24-29 | the forward/backward selectors are used by no other control |
| Controls.RotationButtonsApart | src/main/java/com/testninja/spacex/DockingPage.java:24-29 | pitch, yaw and roll share no selector with each other or with a translation |
| Controls.OffsetButtonsApart | src/main/java/com/testninja/spacex/DockingPage.java:27-29 | the x, y and z translations share no selector with each other or with a rotation |
| Text.RemoveAll | src/main/java/com/testninja/spacex/DockingPage.java:105 | removing a target never lengthens the text and introduces no new character |
| Text.RemoveCharIsFilter | src/main/java/com/testninja/spacex/DockingPage.java:105 | removing a one-character target is the same as filtering that character out, checked against an independent filter definition |
| Text.RemoveAbsent | src/main/java/com/testninja/spacex/DockingPage.java:105 | a target whose first character does not occur leaves the text unchanged |
| Text.StripUnitsRemovesMetre | src/main/java/com/testninja/spacex/DockingPage.java:105 | after removing the degree mark, "/s" and "m", the label holds no 'm', is no longer than before, and holds only characters of the label |
| Text.StripUnitsKeepsNumerals | src/main/java/com/testninja/spacex/DockingPage.java:103-107 | a label without 'Â', '/' or 'm' reaches the parser unchanged |
| Text.StripUnitsCanLeaveRateSuffix | src/main/java/com/testninja/spacex/DockingPage.java:105 | the cleanup does not guarantee a text free of "/s": "/ms" becomes "/s" |
| Text.EqualsIgnoreCaseProperties | src/main/java/com/testninja/spacex/DockingPage.java:158 | the case-insensitive comparison is reflexive, symmetric and transitive, and relates only texts of equal length |
| Rules.Abs | src/main/java/com/testninja/spacex/DockingPage.java:122 | the magnitude is non-negative and is the reading or its negation |
| Rules.IsEqualizedExactlyAtZero | src/main/java/com/testninja/spacex/DockingPage.java:99-101 | a control counts as equalized exactly when its reading is 0, with no tolerance |
| Rules.RotationalTier | src/main/java/com/testninja/spacex/DockingPage.java:122-129 | 10 pulses exactly when the magnitude is above 10, 5 exactly when it is in (1, 10], 1 exactly when it is at most 1 |
| Rules.RotationalTierMonotone | src/main/java/com/testninja/spacex/DockingPage.java:123-129 | a larger error never gets fewer pulses; the count stays between 1 and 10 |
| Rules.TranslationalTier | src/main/java/com/testninja/spacex/DockingPage.java:140-156 | 15 pulses and mode "large" exactly above 10; 10 pulses in (1, 10]; 2 pulses at most 1; mode "" at most 10; never "small" |
| Rules.TranslationalTierMonotone | src/main/java/com/testninja/spacex/DockingPage.java:147-156 | a larger error never gets fewer pulses; the count stays between 2 and 15 |
| Rules.SettleFormulas | src/main/java/com/testninja/spacex/DockingPage.java:130-162 | the per-tier settle times equal round(a / (pulses / 0.1)) and round(a * (pulses * 0.1)) for the pulse count the tier chose |
| Rules.RotationalSettleBounds | src/main/java/com/testninja/spacex/DockingPage.java:130 | a rotational burst waits at all only for an error of 50 or more |
| Rules.TranslationalSettleBounds | src/main/java/com/testninja/spacex/DockingPage.java:162 | a translational burst on an error of at most 1 does not wait; one on an error above 10 waits at least 15 ms |
| Rules.MatchingStatusIsNotToggled | src/main/java/com/testninja/spacex/DockingPage.java:158-160 | a status that already names the required mode is not toggled |
| Rules.SpacedClassListIsToggled | src/main/java/com/testninja/spacex/DockingPage.java:138 | only "noselect" is removed from the class attribute, so the status "noselect large" leaves " large", which differs from "large" and is toggled |
| Rules.BandOf | src/main/java/com/testninja/spacex/DockingPage.java:60-70 | accelerate exactly when x > 100, decelerate exactly when x < 35, neither for 35 <= x <= 100: at most one correction per iteration |
| Rules.TerminalThrustIsNear | src/main/java/com/testninja/spacex/DockingPage.java:77 | the terminal thrust condition implies the deceleration band and a rate above -0.1 |
| Equalizer.PressButton | src/main/java/com/testninja/spacex/DockingPage.java:176-196 | 2n+1 events; the first press is the chosen direction and the last is its opposite; as many increase presses as decrease presses; only the control's own buttons; no read and no toggle |
| Equalizer.PressButtonShape | src/main/java/com/testninja/spacex/DockingPage.java:189-196 | exactly n presses of the first button, then the sleep, then exactly n presses of the other |
| Equalizer.RotationalStep | src/main/java/com/testninja/spacex/DockingPage.java:116-130 | a rotational pass presses increase-first exactly when the reading is negative, with 2 * tier + 1 balanced events: the tier's pulse count of presses in that direction, the settle wait of the reading, then as many presses back |
| Equalizer.TranslationalStep | src/main/java/com/testninja/spacex/DockingPage.java:137-162 | one toggle exactly when the status disagrees with the required mode, otherwise none; the toggle comes first, then the burst in the reading's direction; exactly 2 * tier pulses + 1 events plus the toggle |
| Equalizer.TranslationalStepBurst | src/main/java/com/testninja/spacex/DockingPage.java:140-162 | after the toggle, if any, a translational pass is `pressButton`'s burst for the tier: the tier's pulse count of presses in the reading's direction, the settle wait of the reading, then as many presses back |
| Equalizer.EqualizeRightControl | src/main/java/com/testninja/spacex/DockingPage.java:113-132 | a guard read of exactly 0 ends the loop at once; the loop consumes the readings in order, reads and presses only its own control, stays balanced, never toggles, ends normally only on a guard read of exactly 0, and otherwise has exhausted the readings |
| Equalizer.RightUnrolls | src/main/java/com/testninja/spacex/DockingPage.java:115-131 | after a guard that is not 0, a pass reads the control afresh and bursts on that fresh reading, then the loop goes on from the readings left |
| Equalizer.EqualizeAxisControl | src/main/java/com/testninja/spacex/DockingPage.java:134-164 | as for the rotational loop (a guard read of 0 ends it at once), a pass that finds no status to read ends the run abnormally, and the run toggles at most as often as it observed the precision status |
| Equalizer.AxisUnrolls | src/main/java/com/testninja/spacex/DockingPage.java:136-163 | after a guard that is not 0, a pass reads the control afresh and observes the status, toggles and bursts on those two answers, then the loop goes on |
| Equalizer.PairGuard | src/main/java/com/testninja/spacex/DockingPage.java:167 | a pitch read that is not 0 is the whole guard (yaw is not read); a pitch read of 0 is followed by a yaw read of the next reading; the loop is left exactly when both read 0 in the same guard |
| Equalizer.RotationPair | src/main/java/com/testninja/spacex/DockingPage.java:167-170 | a guard reading pitch and yaw as 0 ends the loop at once; the loop reads and presses only pitch and yaw, keeps both balanced, and ends normally only when its last two events read pitch and then yaw as 0 |
| Equalizer.PairUnrolls | src/main/java/com/testninja/spacex/DockingPage.java:167-170 | a guard that does not leave the loop is followed by pitch's and then yaw's equalizer, and when both end normally the loop tests its guard again on the readings they left |
| Equalizer.PairRoundFails | src/main/java/com/testninja/spacex/DockingPage.java:168-169 | a round whose pitch or yaw equalizer runs out of readings ends the loop right there |
| Equalizer.PairRetestsAfterRound | src/main/java/com/testninja/spacex/DockingPage.java:167-170 | a round that ends on pitch and yaw read as 0 does not leave the loop by itself: on [5, 0, 0] the guard is tested again and finds no reading |
| Equalizer.EqualizeControls | src/main/java/com/testninja/spacex/DockingPage.java:166-173 | roll runs only after the pitch/yaw loop ended normally, and starts on the readings that loop left |
| Equalizer.ControlsFacts | src/main/java/com/testninja/spacex/DockingPage.java:166-173 | the rotation phase consumes the readings in order, leaves pitch, yaw and roll balanced, never toggles, and a normal end last read roll as 0 |
| Sequencer.Correct | src/main/java/com/testninja/spacex/DockingPage.java:60-70 | a correction presses only its band's x button, and presses and rate reads alternate, press first, so each press is followed by its own fresh rate read; it does nothing when the rate is already right; every rate read but the last still called for a press, so it stops at the first read outside its band; a normal exit leaves rate < -1.5 (accelerate) or rate > -0.1 (decelerate) |
| Sequencer.CorrectionStopsAtFirstFastRate | src/main/java/com/testninja/spacex/DockingPage.java:61-64 | from rate 0 the accelerate loop presses once, reads -2.0 and stops, leaving the next reading unread |
| Sequencer.ThrustPress | src/main/java/com/testninja/spacex/DockingPage.java:77-79 | at most one forward press, exactly when 1 < x < 30 and the rate is above -0.09; it happens only in the deceleration band |
| Sequencer.ApproachBody | src/main/java/com/testninja/spacex/DockingPage.java:59-79 | the correction, then y, then z, then the thrust, each starting on the readings the previous left and running only if it ended normally; the thrust uses the latest rate |
| Sequencer.BodyConsumed | src/main/java/com/testninja/spacex/DockingPage.java:59-79 | an iteration body consumes the readings in order, and stops early only on exhausted readings |
| Sequencer.BodyShape | src/main/java/com/testninja/spacex/DockingPage.java:59-79 | an iteration body reads only the rate, y and z, presses only translation buttons, and leaves y and z balanced |
| Sequencer.BodyForwardPresses | src/main/java/com/testninja/spacex/DockingPage.java:59-79 | outside the far band the only forward press is the terminal thrust; outside the near band there is no backward press; the thrust happens exactly when the body ended normally and the thrust condition holds for the latest rate |
| Sequencer.ApproachLoop | src/main/java/com/testninja/spacex/DockingPage.java:55-80 | the loop does nothing when the last x read is within 0.4; a normal end has its last x read within 0.4; y and z stay balanced; an early end means the readings were exhausted |
| Sequencer.OneMoreIteration | src/main/java/com/testninja/spacex/DockingPage.java:54-56 | an iteration whose fresh x read is already within 0.4 still runs its whole body; only the next test of the condition stops the loop |
| Sequencer.WithinReachBody | src/main/java/com/testninja/spacex/DockingPage.java:56-79 | the iteration that reads x = 0.3 and rate 0 still reads y and z before the loop is left |
| Sequencer.Approach | src/main/java/com/testninja/spacex/DockingPage.java:54-80 | one x read, then the loop run from that reading and the readings after it; a first x read within 0.4 ends the approach at once, normally; a normal end has its last x read within 0.4 whatever x the loop started from |
| Sequencer.StartDockingProcess | src/main/java/com/testninja/spacex/DockingPage.java:39-80 | rotation, then y, then z, then the approach, each starting on the readings the previous phase left and running only if every earlier phase ended normally; the last phase is the approach itself, run on the readings z left |
| Sequencer.DockingConsumed | src/main/java/com/testninja/spacex/DockingPage.java:45-80 | the whole procedure consumes the readings and statuses in order |
| Sequencer.DockingStops | src/main/java/com/testninja/spacex/DockingPage.java:45-80 | the procedure ends early only when the readings or statuses are exhausted |
| Sequencer.DockingBalanced | src/main/java/com/testninja/spacex/DockingPage.java:45-80 | over the whole procedure pitch, yaw, roll, y and z get as many increase as decrease presses, and the x buttons are pressed only in the approach |
| Sequencer.DockingArrives | src/main/java/com/testninja/spacex/DockingPage.java:45-80 | a normal end read pitch and yaw, then roll, then y, then z as exactly 0, and its last x read is within 0.4 |

## Left out

- The browser session and bootstrap: `initialize`, `clickBegin`, the JavaScript width tweak, and the final wait for the success element. These are I/O against a live page.
- Element lookup and parsing (`findElement`, `getText`, `getAttribute`, `Float.parseFloat`). A reading is an arbitrary real from the sensor and a class attribute an arbitrary string. Readings are reals, so the NaN and ±Infinity that `Float.parseFloat` returns for labels such as "NaN" or "Infinity" are not modelled; on a NaN every Java comparison is false, so the script would leave the approach loop (:55) on a NaN x read and would never find a NaN control equalized (:100). An unparsable label or a missing element is the end of the stream.
- Non-termination: the live page may keep a loop running forever. Here every loop stops when the sensor runs out, and only the properties of the runs are proved, not that the page ever lets a loop end.
- Failing clicks and sleeps: every click and sleep succeeds in the model. Inside `pressButton` (DockingPage.java:177-200) a failure would be swallowed, ending the burst early; the clicks outside it (the precision toggle at :159, the rate corrections at :62 and :67, the terminal thrust at :78) would throw out of `startDockingProcess` and abort the script. Neither outcome is modelled.
- `Thread.sleep`: the settle time is computed and carried in the `Sleep` event, but no time passes.
- Logging (`System.out.println`).
- Rules.RotationalSettle: computed over exact reals, not in Java float and double arithmetic, so a quotient that rounds differently in binary floating point is not modelled.
- Rules.TranslationalSettle: computed over exact reals, like the rotational settle time.
- Sequencer.ApproachLoop: compares exact reals. In Java a `Float` reading of 0.4 widens to 0.4000000059604645, which is greater than the `double` 0.4, so on a label of exactly "0.4" the script keeps looping while the model stops. The other approach thresholds (-1.5, -0.1, -0.09, 1, 30, 35, 100) decide the same in both.
- Text.EqualsIgnoreCase: folds only ASCII letters, which covers the mode names "large", "small" and "". Java's full Unicode case folding is not modelled.
- Sequencer.WithinReachBody: a single concrete iteration, not a family of sensors. `OneMoreIteration` states the general case.

=== FILE: controls.dfy ===
/**
 * The docking controls: a name (the id of the page element holding the
 * reading), the CSS class of the label carrying the reading, and the CSS
 * selectors of the two buttons that push the reading up and down.
 */
module Controls {

  datatype DockingControl = DockingControl(
    name: string,
    valueLabel: string,
    increaseButton: string,
    decreaseButton: string)

  const AngleLabel: string := "error"
  const DistanceLabel: string := "distance"

  const Yaw := DockingControl("yaw", AngleLabel, "#yaw-left-button", "#yaw-right-button")
  const Pitch := DockingControl("pitch", AngleLabel, "#pitch-up-button", "#pitch-down-button")
  const Roll := DockingControl("roll", AngleLabel, "#roll-left-button", "#roll-right-button")
  const XRange := DockingControl("x-range", DistanceLabel, "#translate-forward-button", "#translate-backward-button")
  const YRange := DockingControl("y-range", DistanceLabel, "#translate-right-button", "#translate-left-button")
  const ZRange := DockingControl("z-range", DistanceLabel, "#translate-up-button", "#translate-down-button")

  /** The read-only closing-rate reading: page element "rate", label "rate". */
  const RateChannel: string := "rate"

  /** The fixed lookup table of the script, keyed by control name. */
  const Registry: map<string, DockingControl> := map[
    "yaw" := Yaw, "pitch" := Pitch, "roll" := Roll,
    "x-range" := XRange, "y-range" := YRange, "z-range" := ZRange]

  /** The two buttons of a control. */
  function Buttons(c: DockingControl): set<string>
  {
    {c.increaseButton, c.decreaseButton}
  }

  /** Each control is filed under its own name, its two buttons are
      distinct, and the closing rate is no control. */
  lemma RegistryWellFormed()
    ensures forall k :: k in Registry ==> Registry[k].name == k
    ensures forall k :: k in Registry ==> Registry[k].increaseButton != Registry[k].decreaseButton
    ensures RateChannel !in Registry
  {
  }

  /** No button belongs to two controls. */
  lemma RegistryButtonsDisjoint()
    ensures forall k, l :: k in Registry && l in Registry && k != l ==>
              Buttons(Registry[k]) !! Buttons(Registry[l])
  {
    var all := [Yaw, Pitch, Roll, XRange, YRange, ZRange];
    assert forall i, j :: 0 <= i < j < |all| ==> Buttons(all[i]) !! Buttons(all[j]);
    forall k, l | k in Registry && l in Registry && k != l
      ensures Buttons(Registry[k]) !! Buttons(Registry[l])
    {
      assert Registry[k] in all && Registry[l] in all;
      assert Registry[k].name == k && Registry[l].name == l;
    }
  }

  /** The buttons of every control but x. */
  const SteeringButtons: set<string> := Buttons(Pitch) + Buttons(Yaw) + Buttons(Roll) + Buttons(YRange) + Buttons(ZRange)

  /** The buttons of the three translations. */
  const TranslationButtons: set<string> := Buttons(XRange) + Buttons(YRange) + Buttons(ZRange)

  /** Neither of `c`'s buttons is among `buttons`. */
  predicate Apart(c: DockingControl, buttons: set<string>)
  {
    c.increaseButton !in buttons && c.decreaseButton !in buttons
  }

  /** Forward translation has buttons of its own. */
  lemma ForwardButtonsApart()
    ensures Apart(XRange, SteeringButtons)
  {
  }

  /** The rotations share no button with each other or with the translations. */
  lemma RotationButtonsApart()
    ensures Apart(Pitch, Buttons(Roll)) && Apart(Pitch, Buttons(YRange)) && Apart(Pitch, Buttons(ZRange))
    ensures Apart(Yaw, Buttons(Roll)) && Apart(Yaw, Buttons(YRange)) && Apart(Yaw, Buttons(ZRange))
    ensures Apart(Roll, Buttons(Pitch) + Buttons(Yaw)) && Apart(Roll, Buttons(YRange)) && Apart(Roll, Buttons(ZRange))
    ensures Apart(Pitch, TranslationButtons) && Apart(Yaw, TranslationButtons) && Apart(Roll, TranslationButtons)
  {
  }

  /** The y and z translations share no button with each other, x or the rotations. */
  lemma OffsetButtonsApart()
    ensures Apart(YRange, Buttons(Pitch) + Buttons(Yaw)) && Apart(YRange, Buttons(Roll))
    ensures Apart(YRange, Buttons(XRange)) && Apart(YRange, Buttons(ZRange))
    ensures Apart(ZRange, Buttons(Pitch) + Buttons(Yaw)) && Apart(ZRange, Buttons(Roll))
    ensures Apart(ZRange, Buttons(XRange)) && Apart(ZRange, Buttons(YRange))
    ensures Apart(XRange, Buttons(YRange)) && Apart(XRange, Buttons(ZRange))
  {
  }
}

=== FILE: equalizer.dfy ===
/**
 * Driving one control's reading to exactly zero: the symmetric burst
 * (`pressButton`), the rotational and translational equalize loops
 * (`equalizeRightControl`, `equalizeAxisControl`) and the coupled
 * pitch/yaw loop followed by roll (`equalizeControls`).
 */
module Equalizer {
  import opened Traces
  import opened Controls
  import opened Rules
  import opened Session

  /** As many presses of the control's increase button as of its decrease button. */
  predicate Balanced(c: DockingControl, t: seq<Event>)
  {
    multiset(t)[Press(c.increaseButton)] == multiset(t)[Press(c.decreaseButton)]
  }

  /** `t` only acts, never toggles, and presses only `c`'s buttons, as often up as down. */
  predicate BalancedActions(c: DockingControl, t: seq<Event>)
  {
    ActionsOnly(t) && PressesWithin(t, Buttons(c)) && Toggle !in t && Balanced(c, t)
  }

  /** `t` only acts, toggles at most once, and presses only `c`'s buttons, as often up as down. */
  predicate ToggledActions(c: DockingControl, t: seq<Event>)
  {
    ActionsOnly(t) && PressesWithin(t, Buttons(c)) && Balanced(c, t) && multiset(t)[Toggle] <= 1
  }

  /** `t` only reads `c`. */
  predicate ReadsOf(c: DockingControl, t: seq<Event>)
  {
    forall e :: e in t ==> e.Read? && e.channel == c.name
  }

  /** The raw shape of a burst: `n` presses of `first`, a wait, `n` presses of `second`. */
  function Burst(first: string, second: string, n: nat, ms: int): seq<Event>
  {
    Repeat(Press(first), n) + [Sleep(ms)] + Repeat(Press(second), n)
  }

  lemma BurstShape(first: string, second: string, n: nat, ms: int)
    ensures var t := Burst(first, second, n, ms);
            && |t| == 2 * n + 1
            && t[..n] == Repeat(Press(first), n)
            && t[n] == Sleep(ms)
            && t[n + 1..] == Repeat(Press(second), n)
  {
    var t := Burst(first, second, n, ms);
    assert t[..n] == Repeat(Press(first), n);
    assert t[n + 1..] == Repeat(Press(second), n);
  }

  lemma BurstMembers(first: string, second: string, n: nat, ms: int)
    ensures forall e :: e in Burst(first, second, n, ms) ==> e == Press(first) || e == Sleep(ms) || e == Press(second)
  {
  }

  lemma BurstCounts(first: string, second: string, n: nat, ms: int, x: Event)
    requires x.Press?
    ensures multiset(Burst(first, second, n, ms))[x] ==
              (if x == Press(first) then n else 0) + (if x == Press(second) then n else 0)
  {
    RepeatCount(Press(first), n, x);
    RepeatCount(Press(second), n, x);
  }

  lemma BurstEnds(first: string, second: string, n: nat, ms: int)
    requires n > 0
    ensures var t := Burst(first, second, n, ms);
            |t| == 2 * n + 1 && t[0] == Press(first) && t[|t| - 1] == Press(second)
  {
    var t := Burst(first, second, n, ms);
    BurstShape(first, second, n, ms);
    assert t[0] == t[..n][0];
    assert t[|t| - 1] == t[n + 1..][n - 1];
  }

  lemma BurstBalanced(c: DockingControl, first: string, second: string, n: nat, ms: int)
    requires {first, second} == Buttons(c)
    ensures Balanced(c, Burst(first, second, n, ms))
  {
    BurstCounts(first, second, n, ms, Press(c.increaseButton));
    BurstCounts(first, second, n, ms, Press(c.decreaseButton));
  }

  lemma BurstActions(c: DockingControl, first: string, second: string, n: nat, ms: int)
    requires {first, second} == Buttons(c)
    ensures var t := Burst(first, second, n, ms);
            PressesWithin(t, Buttons(c)) && ActionsOnly(t) && Toggle !in t
  {
    BurstMembers(first, second, n, ms);
  }

  /** The facts `pressButton`'s contract states, about the raw burst. */
  lemma BurstFacts(c: DockingControl, first: string, second: string, n: nat, ms: int)
    requires {first, second} == Buttons(c)
    ensures var t := Burst(first, second, n, ms);
            && |t| == 2 * n + 1
            && (n > 0 ==> t[0] == Press(first) && t[|t| - 1] == Press(second))
            && Balanced(c, t) && PressesWithin(t, Buttons(c)) && ActionsOnly(t) && Toggle !in t
  {
    if n > 0 {
      BurstEnds(first, second, n, ms);
    }
    BurstBalanced(c, first, second, n, ms);
    BurstActions(c, first, second, n, ms);
  }

  /** `pressButton`: `clickCount` presses of the first button, the settle wait,
      then `clickCount` presses of the opposite button. */
  function PressButton(c: DockingControl, increment: bool, clickCount: nat, sleepTime: int): (t: seq<Event>)
    ensures |t| == 2 * clickCount + 1
    ensures clickCount > 0 ==> t[0] == Press(if increment then c.increaseButton else c.decreaseButton)
    ensures clickCount > 0 ==> t[|t| - 1] == Press(if increment then c.decreaseButton else c.increaseButton)
    ensures Balanced(c, t)
    ensures PressesWithin(t, Buttons(c))
    ensures ActionsOnly(t) && Toggle !in t
  {
    var first := if increment then c.increaseButton else c.decreaseButton;
    var second := if increment then c.decreaseButton else c.increaseButton;
    BurstFacts(c, first, second, clickCount, sleepTime);
    Burst(first, second, clickCount, sleepTime)
  }

  /** The burst in full: the first button `clickCount` times, the wait, the
      opposite button `clickCount` times. */
  lemma PressButtonShape(c: DockingControl, increment: bool, clickCount: nat, sleepTime: int)
    ensures var t := PressButton(c, increment, clickCount, sleepTime);
            && t[..clickCount] == Repeat(Press(if increment then c.increaseButton else c.decreaseButton), clickCount)
            && t[clickCount] == Sleep(sleepTime)
            && t[clickCount + 1..] == Repeat(Press(if increment then c.decreaseButton else c.increaseButton), clickCount)
  {
    var first := if increment then c.increaseButton else c.decreaseButton;
    var second := if increment then c.decreaseButton else c.increaseButton;
    BurstShape(first, second, clickCount, sleepTime);
  }

  /** One pass of `equalizeRightControl` on the fresh reading `v`. */
  function RotationalStep(c: DockingControl, v: real): (t: seq<Event>)
    ensures |t| == 2 * RotationalTier(Abs(v)) + 1
    ensures t[0] == Press(if v < 0.0 then c.increaseButton else c.decreaseButton)
    ensures t[|t| - 1] == Press(if v < 0.0 then c.decreaseButton else c.increaseButton)
    ensures BalancedActions(c, t)
    ensures var n := RotationalTier(Abs(v));
            && t[..n] == Repeat(Press(if v < 0.0 then c.increaseButton else c.decreaseButton), n)
            && t[n] == Sleep(RotationalSettle(Abs(v)))
            && t[n + 1..] == Repeat(Press(if v < 0.0 then c.decreaseButton else c.increaseButton), n)
  {
    PressButtonShape(c, IncreaseFirst(v), RotationalTier(Abs(v)), RotationalSettle(Abs(v)));
    PressButton(c, IncreaseFirst(v), RotationalTier(Abs(v)), RotationalSettle(Abs(v)))
  }

  /** A toggle click, when wanted, in front of a burst. */
  function WithToggle(toggled: bool, burst: seq<Event>): seq<Event>
  {
    if toggled then [Toggle] + burst else burst
  }

  lemma WithToggleFacts(c: DockingControl, toggled: bool, burst: seq<Event>)
    requires |burst| > 0 && BalancedActions(c, burst)
    ensures var t := WithToggle(toggled, burst);
            && |t| == |burst| + (if toggled then 1 else 0)
            && multiset(t)[Toggle] == (if toggled then 1 else 0)
            && (toggled ==> t[0] == Toggle)
            && t[if toggled then 1 else 0] == burst[0]
            && Balanced(c, t) && PressesWithin(t, Buttons(c)) && ActionsOnly(t)
  {
    assert multiset(burst)[Toggle] == 0;
  }

  /** One pass of `equalizeAxisControl` on the fresh reading `v` and the
      class attribute `classAttribute` of the precision-status element. */
  function TranslationalStep(c: DockingControl, v: real, classAttribute: string): (t: seq<Event>)
    ensures var toggled := NeedsToggle(classAttribute, TranslationalTier(Abs(v)).mode);
            && |t| == 2 * TranslationalTier(Abs(v)).pulses + 1 + (if toggled then 1 else 0)
            && multiset(t)[Toggle] == (if toggled then 1 else 0)
            && (toggled ==> t[0] == Toggle)
            && t[if toggled then 1 else 0] == Press(if v < 0.0 then c.increaseButton else c.decreaseButton)
    ensures ToggledActions(c, t)
  {
    var tier := TranslationalTier(Abs(v));
    var burst := PressButton(c, IncreaseFirst(v), tier.pulses, TranslationalSettle(Abs(v)));
    WithToggleFacts(c, NeedsToggle(classAttribute, tier.mode), burst);
    WithToggle(NeedsToggle(classAttribute, tier.mode), burst)
  }

  lemma WithToggleSuffix(toggled: bool, burst: seq<Event>)
    ensures WithToggle(toggled, burst)[if toggled then 1 else 0..] == burst
  {
  }

  /** After the toggle, if any, a translational pass is the tier's burst in
      full: the tier's pulse count of presses in the reading's direction, the
      settle wait, and as many presses back. */
  lemma TranslationalStepBurst(c: DockingControl, v: real, classAttribute: string)
    ensures var tier := TranslationalTier(Abs(v));
            var k := if NeedsToggle(classAttribute, tier.mode) then 1 else 0;
            var t := TranslationalStep(c, v, classAttribute)[k..];
            && t == PressButton(c, v < 0.0, tier.pulses, TranslationalSettle(Abs(v)))
            && t[..tier.pulses] == Repeat(Press(if v < 0.0 then c.increaseButton else c.decreaseButton), tier.pulses)
            && t[tier.pulses] == Sleep(TranslationalSettle(Abs(v)))
            && t[tier.pulses + 1..] == Repeat(Press(if v < 0.0 then c.decreaseButton else c.increaseButton), tier.pulses)
  {
    var tier := TranslationalTier(Abs(v));
    var burst := PressButton(c, IncreaseFirst(v), tier.pulses, TranslationalSettle(Abs(v)));
    WithToggleSuffix(NeedsToggle(classAttribute, tier.mode), burst);
    PressButtonShape(c, IncreaseFirst(v), tier.pulses, TranslationalSettle(Abs(v)));
  }

  /** The part of a run's properties that concerns its events alone: it reads
      only `c`, presses only `c`'s buttons and as often up as down, and when it
      ends normally its last event is a read of exactly zero. */
  predicate RightShape(c: DockingControl, r: Run)
  {
    && ReadsOnly(r.trace, {c.name})
    && PressesWithin(r.trace, Buttons(c)) && Toggle !in r.trace
    && Balanced(c, r.trace)
    && (r.ok ==> |r.trace| > 0 && r.trace[|r.trace| - 1] == Read(c.name, 0.0))
  }

  /** What every run of `equalizeRightControl` on `c` from `s` satisfies. */
  predicate RightRun(c: DockingControl, s: Sensor, r: Run)
  {
    && Consumed(s, r.rest, r.trace) && r.rest.classes == s.classes
    && RightShape(c, r)
    && (!r.ok ==> r.rest.numbers == [])
  }

  /** A pass made of reads of `c` and a balanced burst of `c`'s buttons, in
      front of a run, keeps the run's shape. */
  lemma RightPassShape(c: DockingControl, observed: seq<Event>, step: seq<Event>, rest: Run)
    requires ReadsOf(c, observed)
    requires BalancedActions(c, step)
    requires RightShape(c, rest)
    ensures RightShape(c, Run(rest.ok, rest.rest, observed + step + rest.trace))
  {
    var t := observed + step + rest.trace;
    assert Balanced(c, observed) by {
      assert Press(c.increaseButton) !in observed && Press(c.decreaseButton) !in observed;
    }
    ReadsPass(c, observed, step, rest.trace);
    PressesOnlyPass(observed, step, rest.trace, Buttons(c));
    assert Toggle !in observed + step + rest.trace;
    BalancedAppend(c, observed, step);
    BalancedAppend(c, observed + step, rest.trace);
    if rest.ok {
      LastOfPass(observed + step, rest.trace);
    }
  }

  lemma ReadsPass(c: DockingControl, observed: seq<Event>, actions: seq<Event>, rest: seq<Event>)
    requires ReadsOnly(observed, {c.name}) && ActionsOnly(actions) && ReadsOnly(rest, {c.name})
    ensures ReadsOnly(observed + actions + rest, {c.name})
  {
  }

  lemma BalancedAppend(c: DockingControl, a: seq<Event>, b: seq<Event>)
    requires Balanced(c, a) && Balanced(c, b)
    ensures Balanced(c, a + b)
  {
  }

  lemma LastOfPass(pass: seq<Event>, rest: seq<Event>)
    requires |rest| > 0
    ensures (pass + rest)[|pass + rest| - 1] == rest[|rest| - 1]
  {
  }

  /** One pass (reads of `c`, then a balanced burst of `c`'s buttons) in front
      of a run keeps the run's properties. */
  lemma RightPass(c: DockingControl, s: Sensor, mid: Sensor, observed: seq<Event>, step: seq<Event>, rest: Run)
    requires Consumed(s, mid, observed) && mid.classes == s.classes
    requires ReadsOf(c, observed)
    requires BalancedActions(c, step)
    requires RightRun(c, mid, rest)
    ensures RightRun(c, s, Run(rest.ok, rest.rest, observed + step + rest.trace))
  {
    ConsumedPass(s, mid, observed, step, rest.rest, rest.trace);
    RightPassShape(c, observed, step, rest);
  }

  /** A run that ends after its single guard read. */
  lemma RightGuardOnly(c: DockingControl, s: Sensor)
    requires |s.numbers| > 0
    requires !IsEqualized(s.numbers[0]) ==> |s.numbers| == 1
    ensures RightRun(c, s, Run(IsEqualized(s.numbers[0]), s.AfterRead(), [Read(c.name, s.numbers[0])]))
  {
    ConsumedRead(s, c.name);
  }

  lemma RightPassAt(c: DockingControl, s: Sensor, rest: Run)
    requires |s.numbers| >= 2
    requires RightRun(c, s.AfterRead().AfterRead(), rest)
    ensures RightRun(c, s, Run(rest.ok, rest.rest,
              [Read(c.name, s.numbers[0]), Read(c.name, s.numbers[1])] + RotationalStep(c, s.numbers[1]) + rest.trace))
  {
    RightObservedPass(c, s, RotationalStep(c, s.numbers[1]), rest);
  }

  /** The two reads of a rotational pass in front of its burst and a further run. */
  lemma RightObservedPass(c: DockingControl, s: Sensor, step: seq<Event>, rest: Run)
    requires |s.numbers| >= 2
    requires BalancedActions(c, step)
    requires RightRun(c, s.AfterRead().AfterRead(), rest)
    ensures RightRun(c, s, Run(rest.ok, rest.rest,
              [Read(c.name, s.numbers[0]), Read(c.name, s.numbers[1])] + step + rest.trace))
  {
    ConsumedTwoReads(s, c.name, c.name);
    RightPass(c, s, s.AfterRead().AfterRead(), [Read(c.name, s.numbers[0]), Read(c.name, s.numbers[1])], step, rest);
  }


  /** `equalizeRightControl`: while the guard read is not exactly zero, read
      afresh and burst. Each pass reads twice: the guard, then the value the
      burst is sized from. */
  function EqualizeRightControl(c: DockingControl, s: Sensor): (r: Run)
    ensures RightRun(c, s, r)
    ensures |s.numbers| > 0 && IsEqualized(s.numbers[0]) ==> r == Run(true, s.AfterRead(), [Read(c.name, 0.0)])
    decreases |s.numbers|
  {
    if |s.numbers| == 0 then Run(false, s, [])
    else if IsEqualized(s.numbers[0]) || |s.numbers| == 1 then
      RightGuardOnly(c, s);
      Run(IsEqualized(s.numbers[0]), s.AfterRead(), [Read(c.name, s.numbers[0])])
    else
      var rest := EqualizeRightControl(c, s.AfterRead().AfterRead());
      RightPassAt(c, s, rest);
      Run(rest.ok, rest.rest,
          [Read(c.name, s.numbers[0]), Read(c.name, s.numbers[1])] + RotationalStep(c, s.numbers[1]) + rest.trace)
  }

  /** After a guard that is not exactly zero, a pass reads the control
      afresh and bursts on that fresh reading before the loop goes on. */
  lemma RightUnrolls(c: DockingControl, s: Sensor)
    requires |s.numbers| >= 2 && !IsEqualized(s.numbers[0])
    ensures var rest := EqualizeRightControl(c, s.AfterRead().AfterRead());
            EqualizeRightControl(c, s) == Run(rest.ok, rest.rest,
              [Read(c.name, s.numbers[0]), Read(c.name, s.numbers[1])] + RotationalStep(c, s.numbers[1]) + rest.trace)
  {
  }

  /** The part of an `equalizeAxisControl` run's properties that concerns its
      events alone. Each pass observes the precision status once and toggles
      at most once, so the run never toggles more often than it observed the
      status. */
  predicate AxisShape(c: DockingControl, r: Run)
  {
    && ReadsOnly(r.trace, {c.name})
    && PressesWithin(r.trace, Buttons(c))
    && Balanced(c, r.trace)
    && multiset(r.trace)[Toggle] <= |Statuses(r.trace)|
    && (r.ok ==> |r.trace| > 0 && r.trace[|r.trace| - 1] == Read(c.name, 0.0))
  }

  /** What every run of `equalizeAxisControl` on `c` from `s` satisfies. */
  predicate AxisRun(c: DockingControl, s: Sensor, r: Run)
  {
    && Consumed(s, r.rest, r.trace)
    && AxisShape(c, r)
    && (!r.ok ==> r.rest.numbers == [] || r.rest.classes == [])
  }

  /** `t` only reads `c` and observes the precision status. */
  predicate ObservesOf(c: DockingControl, t: seq<Event>)
  {
    forall e :: e in t ==> (e.Read? && e.channel == c.name) || e.Observe?
  }

  lemma PressesOnlyPass(observed: seq<Event>, actions: seq<Event>, rest: seq<Event>, buttons: set<string>)
    requires PressesWithin(observed, buttons) && PressesWithin(actions, buttons) && PressesWithin(rest, buttons)
    ensures PressesWithin(observed + actions + rest, buttons)
  {
  }

  lemma {:induction false} ToggleCountPass(observed: seq<Event>, actions: seq<Event>, rest: seq<Event>)
    requires Toggle !in observed && |Statuses(observed)| >= 1
    requires ActionsOnly(actions) && multiset(actions)[Toggle] <= 1
    requires multiset(rest)[Toggle] <= |Statuses(rest)|
    ensures multiset(observed + actions + rest)[Toggle] <= |Statuses(observed + actions + rest)|
  {
    ActionsObserveNothing(actions);
    StatusesAppend(observed, actions);
    StatusesAppend(observed + actions, rest);
  }

  /** Observations of `c` and the status, then at most one toggle and a
      balanced burst of `c`'s buttons, in front of a run, keep the run's shape. */
  lemma AxisPassShape(c: DockingControl, observed: seq<Event>, step: seq<Event>, rest: Run)
    requires ObservesOf(c, observed) && |Statuses(observed)| >= 1
    requires ToggledActions(c, step)
    requires AxisShape(c, rest)
    ensures AxisShape(c, Run(rest.ok, rest.rest, observed + step + rest.trace))
  {
    assert Press(c.increaseButton) !in observed && Press(c.decreaseButton) !in observed && Toggle !in observed;
    ReadsPass(c, observed, step, rest.trace);
    PressesOnlyPass(observed, step, rest.trace, Buttons(c));
    BalancedAppend(c, observed, step);
    BalancedAppend(c, observed + step, rest.trace);
    ToggleCountPass(observed, step, rest.trace);
    if rest.ok {
      LastOfPass(observed + step, rest.trace);
    }
  }

  /** One translational pass in front of a run keeps the run's properties. */
  lemma AxisPassRun(c: DockingControl, s: Sensor, mid: Sensor, observed: seq<Event>, step: seq<Event>, rest: Run)
    requires Consumed(s, mid, observed) && |mid.classes| < |s.classes|
    requires ObservesOf(c, observed)
    requires ToggledActions(c, step)
    requires AxisRun(c, mid, rest)
    ensures AxisRun(c, s, Run(rest.ok, rest.rest, observed + step + rest.trace))
  {
    assert |Statuses(observed)| >= 1;
    ConsumedPass(s, mid, observed, step, rest.rest, rest.trace);
    AxisPassShape(c, observed, step, rest);
  }

  /** The events of one translational pass: guard read, fresh read, status, then toggle and burst. */
  function AxisPass(c: DockingControl, guard: real, v: real, classAttribute: string): seq<Event>
  {
    [Read(c.name, guard), Read(c.name, v), Observe(classAttribute)] + TranslationalStep(c, v, classAttribute)
  }

  lemma AxisPassAt(c: DockingControl, s: Sensor, rest: Run)
    requires |s.numbers| >= 2 && |s.classes| >= 1
    requires AxisRun(c, s.AfterRead().AfterRead().AfterObserve(), rest)
    ensures AxisRun(c, s, Run(rest.ok, rest.rest, AxisPass(c, s.numbers[0], s.numbers[1], s.classes[0]) + rest.trace))
  {
    AxisObservedPass(c, s, TranslationalStep(c, s.numbers[1], s.classes[0]), rest);
  }

  /** The observations of a translational pass in front of its step and a further run. */
  lemma AxisObservedPass(c: DockingControl, s: Sensor, step: seq<Event>, rest: Run)
    requires |s.numbers| >= 2 && |s.classes| >= 1
    requires ToggledActions(c, step)
    requires AxisRun(c, s.AfterRead().AfterRead().AfterObserve(), rest)
    ensures AxisRun(c, s, Run(rest.ok, rest.rest,
              [Read(c.name, s.numbers[0]), Read(c.name, s.numbers[1]), Observe(s.classes[0])] + step + rest.trace))
  {
    var observed := [Read(c.name, s.numbers[0]), Read(c.name, s.numbers[1]), Observe(s.classes[0])];
    ConsumedTwoReadsObserve(s, c.name, c.name);
    AxisPassRun(c, s, s.AfterRead().AfterRead().AfterObserve(), observed, step, rest);
  }


  /** A run that ends after its single guard read. */
  lemma AxisGuardOnly(c: DockingControl, s: Sensor)
    requires |s.numbers| > 0
    requires !IsEqualized(s.numbers[0]) ==> |s.numbers| == 1
    ensures AxisRun(c, s, Run(IsEqualized(s.numbers[0]), s.AfterRead(), [Read(c.name, s.numbers[0])]))
  {
    ConsumedRead(s, c.name);
    assert Statuses([Read(c.name, s.numbers[0])]) == [];
  }

  /** A run that reads the guard and the fresh value, then finds no status to read. */
  lemma AxisNoStatus(c: DockingControl, s: Sensor)
    requires |s.numbers| >= 2 && |s.classes| == 0
    ensures AxisRun(c, s, Run(false, s.AfterRead().AfterRead(), [Read(c.name, s.numbers[0]), Read(c.name, s.numbers[1])]))
  {
    ConsumedTwoReads(s, c.name, c.name);
  }

  /** `equalizeAxisControl`: like the rotational loop, but each pass also
      reads the precision status and toggles it when it disagrees with the
      mode the fresh reading needs. */
  function EqualizeAxisControl(c: DockingControl, s: Sensor): (r: Run)
    ensures AxisRun(c, s, r)
    ensures |s.numbers| > 0 && IsEqualized(s.numbers[0]) ==> r == Run(true, s.AfterRead(), [Read(c.name, 0.0)])
    ensures |s.numbers| >= 2 && !IsEqualized(s.numbers[0]) && |s.classes| == 0 ==>
              r == Run(false, s.AfterRead().AfterRead(), [Read(c.name, s.numbers[0]), Read(c.name, s.numbers[1])])
    decreases |s.numbers|
  {
    if |s.numbers| == 0 then Run(false, s, [])
    else if IsEqualized(s.numbers[0]) || |s.numbers| == 1 then
      AxisGuardOnly(c, s);
      Run(IsEqualized(s.numbers[0]), s.AfterRead(), [Read(c.name, s.numbers[0])])
    else if |s.classes| == 0 then
      AxisNoStatus(c, s);
      Run(false, s.AfterRead().AfterRead(), [Read(c.name, s.numbers[0]), Read(c.name, s.numbers[1])])
    else
      var rest := EqualizeAxisControl(c, s.AfterRead().AfterRead().AfterObserve());
      AxisPassAt(c, s, rest);
      Run(rest.ok, rest.rest, AxisPass(c, s.numbers[0], s.numbers[1], s.classes[0]) + rest.trace)
  }

  /** After a guard that is not exactly zero, a pass reads the control
      afresh, observes the status, and toggles and bursts on those two
      answers before the loop goes on. */
  lemma AxisUnrolls(c: DockingControl, s: Sensor)
    requires |s.numbers| >= 2 && |s.classes| >= 1 && !IsEqualized(s.numbers[0])
    ensures var rest := EqualizeAxisControl(c, s.AfterRead().AfterRead().AfterObserve());
            EqualizeAxisControl(c, s) == Run(rest.ok, rest.rest,
              AxisPass(c, s.numbers[0], s.numbers[1], s.classes[0]) + rest.trace)
  {
  }

  /** The properties shared by every stretch of the rotation phase: it reads
      only pitch and yaw, presses only their buttons, never toggles, and
      keeps both controls balanced. */
  predicate RotationFacts(s: Sensor, rest: Sensor, t: seq<Event>)
  {
    && Consumed(s, rest, t) && rest.classes == s.classes
    && ReadsOnly(t, {Pitch.name, Yaw.name})
    && PressesWithin(t, Buttons(Pitch) + Buttons(Yaw)) && Toggle !in t
    && Balanced(Pitch, t) && Balanced(Yaw, t)
  }

  lemma RotationFactsChain(s: Sensor, mid: Sensor, rest: Sensor, a: seq<Event>, b: seq<Event>)
    requires RotationFacts(s, mid, a) && RotationFacts(mid, rest, b)
    ensures RotationFacts(s, rest, a + b)
  {
    ConsumedChain(s, mid, rest, a, b);
  }

  /** A pitch run or a yaw run is a stretch of the rotation phase. */
  lemma RightRunIsRotation(c: DockingControl, s: Sensor, r: Run)
    requires c == Pitch || c == Yaw
    requires RightRun(c, s, r)
    ensures RotationFacts(s, r.rest, r.trace)
  {
    var other := if c == Pitch then Yaw else Pitch;
    assert Press(other.increaseButton) !in r.trace;
    assert Press(other.decreaseButton) !in r.trace;
  }

  /** What every run of the pitch/yaw loop satisfies: it ends on a guard that
      read pitch and then yaw as exactly zero. */
  predicate PairRun(s: Sensor, r: Run)
  {
    && RotationFacts(s, r.rest, r.trace)
    && (r.ok ==> ZeroGuardLast(r.trace))
    && (!r.ok ==> r.rest.numbers == [])
  }

  /** The last two events read pitch and then yaw as exactly zero. */
  predicate ZeroGuardLast(t: seq<Event>)
  {
    |t| >= 2 && t[|t| - 2] == Read(Pitch.name, 0.0) && t[|t| - 1] == Read(Yaw.name, 0.0)
  }

  /** The guard `!isEqualized(pitch) || !isEqualized(yaw)` as a partial run:
      it reads yaw only when pitch read zero, and `ok` means both read zero,
      so the loop is left. */
  function PairGuard(s: Sensor): (r: Run)
    requires |s.numbers| > 0
    requires IsEqualized(s.numbers[0]) ==> |s.numbers| > 1
    ensures RotationFacts(s, r.rest, r.trace) && |r.trace| > 0
    ensures r.ok <==> IsEqualized(s.numbers[0]) && IsEqualized(s.numbers[1])
    ensures r.ok ==> r.trace == [Read(Pitch.name, 0.0), Read(Yaw.name, 0.0)]
    ensures !IsEqualized(s.numbers[0]) ==> r.trace == [Read(Pitch.name, s.numbers[0])] && r.rest == s.AfterRead()
    ensures IsEqualized(s.numbers[0]) ==>
              r.trace == [Read(Pitch.name, 0.0), Read(Yaw.name, s.numbers[1])] && r.rest == s.AfterRead().AfterRead()
    ensures |r.rest.numbers| < |s.numbers|
  {
    ConsumedRead(s, Pitch.name);
    if !IsEqualized(s.numbers[0]) then
      Run(false, s.AfterRead(), [Read(Pitch.name, s.numbers[0])])
    else
      ConsumedRead(s.AfterRead(), Yaw.name);
      ConsumedChain(s, s.AfterRead(), s.AfterRead().AfterRead(),
                    [Read(Pitch.name, s.numbers[0])], [Read(Yaw.name, s.numbers[1])]);
      assert [Read(Pitch.name, s.numbers[0])] + [Read(Yaw.name, s.numbers[1])]
          == [Read(Pitch.name, s.numbers[0]), Read(Yaw.name, s.numbers[1])];
      Run(IsEqualized(s.numbers[1]), s.AfterRead().AfterRead(),
          [Read(Pitch.name, s.numbers[0]), Read(Yaw.name, s.numbers[1])])
  }

  lemma ZeroGuardLastAppend(a: seq<Event>, t: seq<Event>)
    requires ZeroGuardLast(t)
    ensures ZeroGuardLast(a + t)
  {
    assert (a + t)[|a + t| - 2] == t[|t| - 2];
    assert (a + t)[|a + t| - 1] == t[|t| - 1];
  }

  /** A stretch of the rotation phase in front of a pitch/yaw run keeps the run's properties. */
  lemma PairChain(s: Sensor, mid: Sensor, a: seq<Event>, r: Run)
    requires RotationFacts(s, mid, a) && PairRun(mid, r)
    ensures PairRun(s, Run(r.ok, r.rest, a + r.trace))
  {
    RotationFactsChain(s, mid, r.rest, a, r.trace);
    assert r.ok ==> ZeroGuardLast(a + r.trace) by {
      if r.ok {
        ZeroGuardLastAppend(a, r.trace);
      }
    }
  }

  /** The loop ends because the pitch equalizer ran out of readings. */
  lemma PairPitchFails(s: Sensor, guard: Run, p: Run)
    requires RotationFacts(s, guard.rest, guard.trace)
    requires RightRun(Pitch, guard.rest, p) && !p.ok
    ensures PairRun(s, Run(false, p.rest, guard.trace + p.trace))
  {
    RightRunIsRotation(Pitch, guard.rest, p);
    PairChain(s, guard.rest, guard.trace, p);
  }

  /** The loop ends because the yaw equalizer ran out of readings. */
  lemma PairYawFails(s: Sensor, guard: Run, p: Run, y: Run)
    requires RotationFacts(s, guard.rest, guard.trace)
    requires RightRun(Pitch, guard.rest, p) && RightRun(Yaw, p.rest, y) && !y.ok
    ensures PairRun(s, Run(false, y.rest, guard.trace + p.trace + y.trace))
  {
    RightRunIsRotation(Pitch, guard.rest, p);
    RightRunIsRotation(Yaw, p.rest, y);
    RotationFactsChain(s, guard.rest, p.rest, guard.trace, p.trace);
    PairChain(s, p.rest, guard.trace + p.trace, y);
  }

  /** One round of the loop (guard, pitch, yaw) in front of the rest of the loop. */
  lemma PairPass(s: Sensor, guard: Run, p: Run, y: Run, rest: Run)
    requires RotationFacts(s, guard.rest, guard.trace)
    requires RightRun(Pitch, guard.rest, p) && RightRun(Yaw, p.rest, y)
    requires PairRun(y.rest, rest)
    ensures PairRun(s, Run(rest.ok, rest.rest, guard.trace + p.trace + y.trace + rest.trace))
  {
    RightRunIsRotation(Pitch, guard.rest, p);
    RightRunIsRotation(Yaw, p.rest, y);
    RotationFactsChain(s, guard.rest, p.rest, guard.trace, p.trace);
    RotationFactsChain(s, p.rest, y.rest, guard.trace + p.trace, y.trace);
    PairChain(s, y.rest, guard.trace + p.trace + y.trace, rest);
  }

  /** The loop ends on a guard that read both controls as zero. */
  lemma PairGuardExits(s: Sensor)
    requires |s.numbers| > 0
    requires IsEqualized(s.numbers[0]) ==> |s.numbers| > 1
    requires PairGuard(s).ok
    ensures PairRun(s, PairGuard(s))
  {
  }

  /** The loop stops on an exhausted sensor, reading pitch if anything is left. */
  lemma PairExhausted(s: Sensor)
    requires |s.numbers| <= 1
    requires |s.numbers| == 1 ==> IsEqualized(s.numbers[0])
    ensures |s.numbers| == 0 ==> PairRun(s, Run(false, s, []))
    ensures |s.numbers| == 1 ==> PairRun(s, Run(false, s.AfterRead(), [Read(Pitch.name, s.numbers[0])]))
  {
    if |s.numbers| == 1 {
      ConsumedRead(s, Pitch.name);
    }
  }

  /** The pitch/yaw loop of `equalizeControls`: `while (!isEqualized(pitch) || !isEqualized(yaw))`
      equalize pitch, then yaw. */
  function RotationPair(s: Sensor): (r: Run)
    ensures PairRun(s, r)
    ensures |s.numbers| > 0 && (IsEqualized(s.numbers[0]) ==> |s.numbers| > 1) && PairGuard(s).ok ==> r == PairGuard(s)
    decreases |s.numbers|
  {
    if |s.numbers| == 0 then
      PairExhausted(s);
      Run(false, s, [])
    else if IsEqualized(s.numbers[0]) && |s.numbers| == 1 then
      PairExhausted(s);
      Run(false, s.AfterRead(), [Read(Pitch.name, s.numbers[0])])
    else
      var guard := PairGuard(s);
      if guard.ok then
        PairGuardExits(s);
        guard
      else
        var p := EqualizeRightControl(Pitch, guard.rest);
        if !p.ok then
          PairPitchFails(s, guard, p);
          Run(false, p.rest, guard.trace + p.trace)
        else
          var y := EqualizeRightControl(Yaw, p.rest);
          if !y.ok then
            PairYawFails(s, guard, p, y);
            Run(false, y.rest, guard.trace + p.trace + y.trace)
          else
            var rest := RotationPair(y.rest);
            PairPass(s, guard, p, y, rest);
            Run(rest.ok, rest.rest, guard.trace + p.trace + y.trace + rest.trace)
  }

  /** A guard that does not leave the loop is followed by one round, pitch
      and then yaw, and the loop goes on from the readings that round left. */
  lemma PairUnrolls(s: Sensor)
    requires |s.numbers| > 0 && (IsEqualized(s.numbers[0]) ==> |s.numbers| > 1)
    requires !PairGuard(s).ok
    ensures var g := PairGuard(s);
            var p := EqualizeRightControl(Pitch, g.rest);
            var y := EqualizeRightControl(Yaw, p.rest);
            p.ok && y.ok ==> var rest := RotationPair(y.rest);
                             RotationPair(s) == Run(rest.ok, rest.rest, g.trace + p.trace + y.trace + rest.trace)
  {
  }

  /** A round that runs out of readings ends the loop there. */
  lemma PairRoundFails(s: Sensor)
    requires |s.numbers| > 0 && (IsEqualized(s.numbers[0]) ==> |s.numbers| > 1)
    requires !PairGuard(s).ok
    ensures var g := PairGuard(s);
            var p := EqualizeRightControl(Pitch, g.rest);
            var y := EqualizeRightControl(Yaw, p.rest);
            && (!p.ok ==> RotationPair(s) == Run(false, p.rest, g.trace + p.trace))
            && (p.ok && !y.ok ==> RotationPair(s) == Run(false, y.rest, g.trace + p.trace + y.trace))
  {
  }

  /** A round that ends on pitch and yaw read as zero does not end the loop by
      itself: the guard is tested again, and here finds no reading left. */
  lemma PairRetestsAfterRound()
    ensures RotationPair(Sensor([5.0, 0.0, 0.0], [])) ==
            Run(false, Sensor([], []), [Read(Pitch.name, 5.0), Read(Pitch.name, 0.0), Read(Yaw.name, 0.0)])
  {
    var s := Sensor([5.0, 0.0, 0.0], []);
    assert PairGuard(s) == Run(false, Sensor([0.0, 0.0], []), [Read(Pitch.name, 5.0)]);
    assert EqualizeRightControl(Pitch, Sensor([0.0, 0.0], [])) == Run(true, Sensor([0.0], []), [Read(Pitch.name, 0.0)]);
    assert EqualizeRightControl(Yaw, Sensor([0.0], [])) == Run(true, Sensor([], []), [Read(Yaw.name, 0.0)]);
    assert RotationPair(Sensor([], [])) == Run(false, Sensor([], []), []);
    PairUnrolls(s);
    assert [Read(Pitch.name, 5.0)] + [Read(Pitch.name, 0.0)] + [Read(Yaw.name, 0.0)] + []
        == [Read(Pitch.name, 5.0), Read(Pitch.name, 0.0), Read(Yaw.name, 0.0)];
  }

  /** The outcome of `equalizeControls`: the pitch/yaw loop, then the roll loop,
      which runs only when the first one ended normally. */
  datatype Rotation = Rotation(pair: Run, roll: Run)
  {
    predicate Ok() { pair.ok && roll.ok }
    function Rest(): Sensor { roll.rest }
  }

  /** What every run of `equalizeControls` from `s` satisfies. */
  predicate ControlsRun(s: Sensor, r: Rotation)
  {
    && PairRun(s, r.pair)
    && (r.pair.ok ==> RightRun(Roll, r.pair.rest, r.roll))
    && (!r.pair.ok ==> r.roll == Run(false, r.pair.rest, []))
  }

  /** `equalizeControls`: the pitch/yaw loop until both read zero in one guard, then roll once. */
  function EqualizeControls(s: Sensor): (r: Rotation)
    ensures ControlsRun(s, r)
  {
    var pair := RotationPair(s);
    if !pair.ok then Rotation(pair, Run(false, pair.rest, []))
    else Rotation(pair, EqualizeRightControl(Roll, pair.rest))
  }

  /** The whole rotation phase consumes the sensor in order, touches only the
      three rotational controls and leaves each of them balanced; a normal end
      has read pitch, yaw and then roll as exactly zero. */
  lemma ControlsFacts(s: Sensor)
    ensures var r := EqualizeControls(s);
            && Consumed(s, r.Rest(), r.pair.trace + r.roll.trace)
            && r.Rest().classes == s.classes
            && ReadsOnly(r.pair.trace, {Pitch.name, Yaw.name}) && ReadsOnly(r.roll.trace, {Roll.name})
            && Toggle !in r.pair.trace + r.roll.trace
            && Balanced(Pitch, r.pair.trace) && Balanced(Yaw, r.pair.trace) && Balanced(Roll, r.roll.trace)
            && (r.Ok() ==> r.roll.trace[|r.roll.trace| - 1] == Read(Roll.name, 0.0))
            && (!r.Ok() ==> r.Rest().numbers == [])
  {
    var r := EqualizeControls(s);
    if r.pair.ok {
      ConsumedChain(s, r.pair.rest, r.roll.rest, r.pair.trace, r.roll.trace);
    } else {
      assert r.pair.trace + r.roll.trace == r.pair.trace;
    }
  }
}

=== FILE: rules.dfy ===
/**
 * The decisions the docking script takes on a single reading: when a
 * control counts as equalized, which way and how many times to push, how
 * long to let a burst settle, which precision mode a translation needs,
 * and which approach band a range reading falls into.
 */
module Rules {
  import Text

  /** Java's `Math.abs` on a reading. */
  function Abs(v: real): (a: real)
    ensures a >= 0.0
    ensures a == v || a == -v
  {
    if v < 0.0 then -v else v
  }

  /** `isEqualized`: the absolute reading is exactly zero; there is no tolerance. */
  predicate IsEqualized(v: real)
  {
    Abs(v) == 0.0
  }

  lemma IsEqualizedExactlyAtZero(v: real)
    ensures IsEqualized(v) <==> v == 0.0
  {
  }

  /** Push the reading up first exactly when it is strictly negative;
      zero and positive readings push down first. */
  predicate IncreaseFirst(v: real)
  {
    v < 0.0
  }

  // Tier bounds shared by both axis kinds.
  const CoarseBound: real := 10.0
  const FineBound: real := 1.0

  // Pulse counts of the rotational tiers.
  const RotationalCoarse: nat := 10
  const RotationalMedium: nat := 5
  const RotationalFine: nat := 1

  // Pulse counts of the translational tiers.
  const TranslationalCoarse: nat := 15
  const TranslationalMedium: nat := 10
  const TranslationalFine: nat := 2

  // Precision modes a translation may require.
  const LargeMode: string := "large"
  const DefaultMode: string := ""
  const SmallMode: string := "small"

  /** `equalizeRightControl`'s choice of pulse count for magnitude `a`;
      both comparisons are strict. */
  function RotationalTier(a: real): (n: nat)
    ensures n == RotationalCoarse <==> a > CoarseBound
    ensures n == RotationalMedium <==> FineBound < a <= CoarseBound
    ensures n == RotationalFine <==> a <= FineBound
  {
    if a > CoarseBound then RotationalCoarse
    else if a > FineBound then RotationalMedium
    else RotationalFine
  }

  /** A larger error never gets a smaller rotational burst. */
  lemma RotationalTierMonotone(a: real, b: real)
    requires a <= b
    ensures 1 <= RotationalTier(a) <= RotationalTier(b) <= 10
  {
  }

  datatype Tier = Tier(pulses: nat, mode: string)

  /** `equalizeAxisControl`'s choice of pulse count and precision mode. */
  function TranslationalTier(a: real): (t: Tier)
    ensures t.pulses == TranslationalCoarse <==> a > CoarseBound
    ensures t.pulses == TranslationalMedium <==> FineBound < a <= CoarseBound
    ensures t.pulses == TranslationalFine <==> a <= FineBound
    ensures t.mode == LargeMode <==> a > CoarseBound
    ensures t.mode == DefaultMode <==> a <= CoarseBound
    ensures t.mode != SmallMode
  {
    if a > CoarseBound then Tier(TranslationalCoarse, LargeMode)
    else if a > FineBound then Tier(TranslationalMedium, DefaultMode)
    else Tier(TranslationalFine, DefaultMode)
  }

  lemma TranslationalTierMonotone(a: real, b: real)
    requires a <= b
    ensures 2 <= TranslationalTier(a).pulses <= TranslationalTier(b).pulses <= 15
  {
  }

  /** Java's `Math.round` (round half up) on the settle-time quotient. */
  function RoundHalfUp(x: real): int
  {
    (x + 0.5).Floor
  }

  /** Settle time of a rotational burst in milliseconds, `round(a / (pulses / 0.1))`,
      written out per tier: the divisor is 100, 50 or 10. */
  function RotationalSettle(a: real): int
  {
    if a > CoarseBound then RoundHalfUp(a / 100.0)
    else if a > FineBound then RoundHalfUp(a / 50.0)
    else RoundHalfUp(a / 10.0)
  }

  /** Settle time of a translational burst in milliseconds, `round(a * (pulses * 0.1))`,
      written out per tier: the factor is 1.5, 1.0 or 0.2. */
  function TranslationalSettle(a: real): int
  {
    if a > CoarseBound then RoundHalfUp(a * 1.5)
    else if a > FineBound then RoundHalfUp(a * 1.0)
    else RoundHalfUp(a * 0.2)
  }

  /** The per-tier forms are the source's formulas. */
  lemma SettleFormulas(a: real)
    ensures RotationalSettle(a) == RoundHalfUp(a / (RotationalTier(a) as real / 0.1))
    ensures TranslationalSettle(a) == RoundHalfUp(a * (TranslationalTier(a).pulses as real * 0.1))
  {
  }

  /** A rotational burst waits at all only for errors of 50 and more. */
  lemma RotationalSettleBounds(a: real)
    requires a >= 0.0
    ensures RotationalSettle(a) >= 0
    ensures a < 50.0 ==> RotationalSettle(a) == 0
    ensures a >= 50.0 ==> RotationalSettle(a) >= 1
  {
  }

  /** A translational burst on a fine error (at most 1) does not wait. */
  lemma TranslationalSettleBounds(a: real)
    requires a >= 0.0
    ensures TranslationalSettle(a) >= 0
    ensures a <= FineBound ==> TranslationalSettle(a) == 0
    ensures a > CoarseBound ==> TranslationalSettle(a) >= 15
  {
  }

  /** The precision status of the page: the toggle's class attribute with "noselect" removed. */
  function PrecisionStatus(classAttribute: string): string
  {
    Text.RemoveAll(classAttribute, "noselect")
  }

  /** Toggle precision exactly when the live status differs, ignoring case, from the required mode. */
  predicate NeedsToggle(classAttribute: string, required: string)
  {
    !Text.EqualsIgnoreCase(PrecisionStatus(classAttribute), required)
  }

  /** A status that already names the required mode is left alone. */
  lemma MatchingStatusIsNotToggled(classAttribute: string, required: string)
    requires PrecisionStatus(classAttribute) == required
    ensures !NeedsToggle(classAttribute, required)
  {
    Text.EqualsIgnoreCaseProperties(required, required, required);
  }

  /** The comparison is exact after removing "noselect": leftover whitespace
      between class names makes the status differ from every mode name. */
  lemma SpacedClassListIsToggled()
    ensures !NeedsToggle("noselect", DefaultMode)
    ensures NeedsToggle("noselect", LargeMode)
    ensures NeedsToggle("noselect large", LargeMode)
  {
    assert PrecisionStatus("noselect") == "";
    assert PrecisionStatus("noselect large") == " large" by {
      assert Text.RemoveAll(" large", "noselect") == " large" by {
        Text.RemoveAbsent(" large", "noselect");
      }
    }
  }

  // Approach envelope.
  const ArrivalRange: real := 0.4
  const FarRange: real := 100.0
  const NearRange: real := 35.0
  const ThrustRange: real := 30.0
  const ThrustFloor: real := 1.0
  const FastRate: real := -1.5
  const SafeRate: real := -0.1
  const CreepRate: real := -0.09

  /** Which rate correction an approach iteration applies. */
  datatype Band = Accelerate | Decelerate | Coast

  /** The `if (x > 100) … else if (x < 35)` choice: at most one correction per iteration. */
  function BandOf(x: real): (b: Band)
    ensures b == Accelerate <==> x > FarRange
    ensures b == Decelerate <==> x < NearRange
    ensures b == Coast <==> NearRange <= x <= FarRange
  {
    if x > FarRange then Accelerate
    else if x < NearRange then Decelerate
    else Coast
  }

  /** The single terminal press: close in (between 1 and 30) and slower than the creep rate. */
  predicate TerminalThrust(x: real, rate: real)
  {
    x < ThrustRange && x > ThrustFloor && rate > CreepRate
  }

  /** The terminal press only ever happens in the deceleration band. */
  lemma TerminalThrustIsNear(x: real, rate: real)
    requires TerminalThrust(x, rate)
    ensures BandOf(x) == Decelerate
    ensures rate > SafeRate
  {
  }
}

=== FILE: sequencer.dfy ===
/**
 * The docking sequence: rotation first, then the lateral and vertical
 * offsets, then the approach loop along the x axis with its rate
 * corrections, in-flight re-equalization and terminal thrust.
 */
module Sequencer {
  import opened Traces
  import opened Controls
  import opened Rules
  import opened Session
  import opened Equalizer

  /** Whether the rate-correction loop of `band` presses again at closing rate `rate`:
      `while (rate >= -1.50)` far out, `while (rate <= -0.1)` close in, nothing in between. */
  predicate KeepsCorrecting(band: Band, rate: real)
  {
    match band
    case Accelerate => rate >= FastRate
    case Decelerate => rate <= SafeRate
    case Coast => false
  }

  /** The x button a correction presses: forward to speed up, backward to slow down. */
  function CorrectionButton(band: Band): string
  {
    if band == Accelerate then XRange.increaseButton else XRange.decreaseButton
  }

  /** What every run of a rate-correction loop satisfies. Presses and rate
      reads alternate, press first, so each press is followed by a fresh rate
      read, except a last press whose read failed; and the loop stops at the
      first rate read that no longer calls for a press: every read but the
      last still did. */
  predicate CorrectionRun(s: Sensor, band: Band, rate: real, r: Run)
  {
    && Consumed(s, r.rest, r.trace) && r.rest.classes == s.classes
    && ReadsOnly(r.trace, {RateChannel}) && PressesWithin(r.trace, {CorrectionButton(band)}) && Toggle !in r.trace
    && (r.trace == [] <==> !KeepsCorrecting(band, rate))
    && multiset(r.trace)[Press(CorrectionButton(band))] == |Readings(r.trace)| + (if r.ok then 0 else 1)
    && (r.ok ==> !KeepsCorrecting(band, LastReadOf(r.trace, RateChannel, rate)))
    && (forall i :: 0 <= i < |r.trace| - 1 && r.trace[i].Read? ==> KeepsCorrecting(band, r.trace[i].value))
    && (forall i :: 0 <= i < |r.trace| ==> (i % 2 == 0 <==> r.trace[i] == Press(CorrectionButton(band))))
    && (!r.ok ==> r.rest.numbers == [])
  }

  /** One press and the rate read after it, in front of the rest of the loop. */
  lemma CorrectionPass(s: Sensor, band: Band, rate: real, rest: Run)
    requires |s.numbers| > 0 && KeepsCorrecting(band, rate)
    requires CorrectionRun(s.AfterRead(), band, s.numbers[0], rest)
    ensures CorrectionRun(s, band, rate, Run(rest.ok, rest.rest,
              [Press(CorrectionButton(band)), Read(RateChannel, s.numbers[0])] + rest.trace))
  {
    var v := s.numbers[0];
    var pass := [Press(CorrectionButton(band)), Read(RateChannel, v)];
    CorrectionPassConsumed(s, CorrectionButton(band), rest);
    CorrectionPassCount(CorrectionButton(band), v, rest.trace);
    assert LastReadOf(pass, RateChannel, rate) == v;
    LastReadOfAppend(pass, rest.trace, RateChannel, rate);
    CorrectionPassKeeps(band, v, rest.trace);
    CorrectionPassAlternates(CorrectionButton(band), v, rest.trace);
  }

  /** A read in front of a non-empty rest of the loop called for a further press. */
  lemma CorrectionPassKeeps(band: Band, v: real, rest: seq<Event>)
    requires rest != [] <==> KeepsCorrecting(band, v)
    requires forall i :: 0 <= i < |rest| - 1 && rest[i].Read? ==> KeepsCorrecting(band, rest[i].value)
    ensures var t := [Press(CorrectionButton(band)), Read(RateChannel, v)] + rest;
            forall i :: 0 <= i < |t| - 1 && t[i].Read? ==> KeepsCorrecting(band, t[i].value)
  {
    var t := [Press(CorrectionButton(band)), Read(RateChannel, v)] + rest;
    forall i | 0 <= i < |t| - 1 && t[i].Read?
      ensures KeepsCorrecting(band, t[i].value)
    {
      if i >= 2 {
        assert t[i] == rest[i - 2];
      }
    }
  }

  /** A press and a read in front of an alternating rest keep the alternation. */
  lemma CorrectionPassAlternates(button: string, v: real, rest: seq<Event>)
    requires forall i :: 0 <= i < |rest| ==> (i % 2 == 0 <==> rest[i] == Press(button))
    ensures var t := [Press(button), Read(RateChannel, v)] + rest;
            forall i :: 0 <= i < |t| ==> (i % 2 == 0 <==> t[i] == Press(button))
  {
    var t := [Press(button), Read(RateChannel, v)] + rest;
    forall i | 0 <= i < |t|
      ensures i % 2 == 0 <==> t[i] == Press(button)
    {
      if i >= 2 {
        assert t[i] == rest[i - 2];
        assert (i - 2) % 2 == i % 2;
      }
    }
  }

  lemma CorrectionPassConsumed(s: Sensor, button: string, rest: Run)
    requires |s.numbers| > 0
    requires Consumed(s.AfterRead(), rest.rest, rest.trace)
    ensures Consumed(s, rest.rest, [Press(button), Read(RateChannel, s.numbers[0])] + rest.trace)
  {
    ConsumedNothing(s, [Press(button)]);
    ConsumedRead(s, RateChannel);
    ConsumedChain(s, s, s.AfterRead(), [Press(button)], [Read(RateChannel, s.numbers[0])]);
    assert [Press(button)] + [Read(RateChannel, s.numbers[0])] == [Press(button), Read(RateChannel, s.numbers[0])];
    ConsumedChain(s, s.AfterRead(), rest.rest, [Press(button), Read(RateChannel, s.numbers[0])], rest.trace);
  }

  lemma CorrectionPassCount(button: string, v: real, t: seq<Event>)
    ensures multiset([Press(button), Read(RateChannel, v)] + t)[Press(button)] == multiset(t)[Press(button)] + 1
    ensures |Readings([Press(button), Read(RateChannel, v)] + t)| == |Readings(t)| + 1
  {
    var pass := [Press(button), Read(RateChannel, v)];
    ReadingsAppend(pass, t);
    assert Readings(pass) == [v];
  }

  /** The loop's exits without a further pass: the rate is already right, or
      the read after the press fails. */
  lemma CorrectionStops(s: Sensor, band: Band, rate: real)
    requires !KeepsCorrecting(band, rate) || |s.numbers| == 0
    ensures !KeepsCorrecting(band, rate) ==> CorrectionRun(s, band, rate, Run(true, s, []))
    ensures KeepsCorrecting(band, rate) ==> CorrectionRun(s, band, rate, Run(false, s, [Press(CorrectionButton(band))]))
  {
    if KeepsCorrecting(band, rate) {
      ConsumedNothing(s, [Press(CorrectionButton(band))]);
    }
  }

  /** The rate-correction loop of `band`, entered with the closing rate `rate`:
      while the rate calls for it, press the band's x button and read the rate again. */
  function Correct(s: Sensor, band: Band, rate: real): (r: Run)
    ensures CorrectionRun(s, band, rate, r)
    decreases |s.numbers|
  {
    if !KeepsCorrecting(band, rate) then
      CorrectionStops(s, band, rate);
      Run(true, s, [])
    else if |s.numbers| == 0 then
      CorrectionStops(s, band, rate);
      Run(false, s, [Press(CorrectionButton(band))])
    else
      var rest := Correct(s.AfterRead(), band, s.numbers[0]);
      CorrectionPass(s, band, rate, rest);
      Run(rest.ok, rest.rest, [Press(CorrectionButton(band)), Read(RateChannel, s.numbers[0])] + rest.trace)
  }

  /** A trace that presses only `buttons` leaves a control whose buttons are
      both outside `buttons` untouched, hence balanced. */
  lemma UntouchedIsBalanced(c: DockingControl, t: seq<Event>, buttons: set<string>)
    requires PressesWithin(t, buttons)
    requires Apart(c, buttons)
    ensures Balanced(c, t) && multiset(t)[Press(c.increaseButton)] == 0
  {
    assert Press(c.increaseButton) !in t && Press(c.decreaseButton) !in t;
  }

  /** The body of one approach iteration, after the x and rate reads: the rate
      correction of the band, the lateral and vertical re-equalization, and
      the terminal thrust. Each later part runs only if the earlier ones
      ended normally. */
  datatype Body = Body(correction: Run, lateral: Run, vertical: Run, thrust: seq<Event>)
  {
    predicate Ok() { correction.ok && lateral.ok && vertical.ok }
    function Rest(): Sensor { vertical.rest }
    function Trace(): seq<Event> { correction.trace + lateral.trace + vertical.trace + thrust }
  }

  /** The single terminal thrust press an iteration ends with, if any. */
  function ThrustPress(x: real, rate: real): (t: seq<Event>)
    ensures |t| <= 1
    ensures t != [] <==> TerminalThrust(x, rate)
    ensures t != [] ==> t == [Press(XRange.increaseButton)] && BandOf(x) == Decelerate
  {
    if TerminalThrust(x, rate) then
      TerminalThrustIsNear(x, rate);
      [Press(XRange.increaseButton)]
    else []
  }

  /** How the parts of an iteration body chain: each part starts from the
      sensor the previous one left, and a part after a failure is empty. */
  predicate BodyRun(s: Sensor, x: real, rate: real, b: Body)
  {
    && CorrectionRun(s, BandOf(x), rate, b.correction)
    && (b.correction.ok ==> AxisRun(YRange, b.correction.rest, b.lateral))
    && (!b.correction.ok ==> b.lateral == Run(false, b.correction.rest, []))
    && (b.correction.ok && b.lateral.ok ==> AxisRun(ZRange, b.lateral.rest, b.vertical))
    && (!(b.correction.ok && b.lateral.ok) ==> b.vertical == Run(false, b.lateral.rest, []))
    && b.thrust == (if b.Ok() then ThrustPress(x, LastReadOf(b.correction.trace, RateChannel, rate)) else [])
  }

  /** The loop body at x reading `x` and closing rate `rate`. */
  function ApproachBody(s: Sensor, x: real, rate: real): (b: Body)
    ensures BodyRun(s, x, rate, b)
  {
    var correction := Correct(s, BandOf(x), rate);
    if !correction.ok then
      Body(correction, Run(false, correction.rest, []), Run(false, correction.rest, []), [])
    else
      var lateral := EqualizeAxisControl(YRange, correction.rest);
      if !lateral.ok then
        Body(correction, lateral, Run(false, lateral.rest, []), [])
      else
        var vertical := EqualizeAxisControl(ZRange, lateral.rest);
        Body(correction, lateral, vertical,
             if vertical.ok then ThrustPress(x, LastReadOf(correction.trace, RateChannel, rate)) else [])
  }

  /** The channels the approach reads. */
  const ApproachChannels: set<string> := {XRange.name, RateChannel, YRange.name, ZRange.name}

  /** An iteration body consumes the sensor in order, ends normally only when
      all its parts did, and otherwise leaves an exhausted sensor. */
  lemma BodyConsumed(s: Sensor, x: real, rate: real)
    ensures var b := ApproachBody(s, x, rate);
            && Consumed(s, b.Rest(), b.Trace())
            && |b.Rest().numbers| <= |s.numbers|
            && (!b.Ok() ==> b.Rest().numbers == [] || b.Rest().classes == [])
  {
    var b := ApproachBody(s, x, rate);
    var c, l, v := b.correction, b.lateral, b.vertical;
    ConsumedNothing(l.rest, []);
    ConsumedNothing(v.rest, b.thrust);
    ConsumedChain(s, c.rest, l.rest, c.trace, l.trace);
    ConsumedChain(s, l.rest, v.rest, c.trace + l.trace, v.trace);
    ConsumedChain(s, v.rest, v.rest, c.trace + l.trace + v.trace, b.thrust);
  }

  /** The events of an equalization of `c`: reads of `c` and balanced presses of its buttons. */
  predicate AxisPart(c: DockingControl, t: seq<Event>)
  {
    ReadsOnly(t, {c.name}) && PressesWithin(t, Buttons(c)) && Balanced(c, t)
  }

  /** The events of a rate correction or a terminal thrust: rate reads and x presses. */
  predicate ForwardPart(t: seq<Event>)
  {
    ReadsOnly(t, {RateChannel}) && PressesWithin(t, Buttons(XRange))
  }

  lemma PartsShape(ct: seq<Event>, lt: seq<Event>, vt: seq<Event>, tt: seq<Event>)
    requires ForwardPart(ct) && AxisPart(YRange, lt) && AxisPart(ZRange, vt) && ForwardPart(tt)
    ensures ReadsOnly(ct + lt + vt + tt, {RateChannel, YRange.name, ZRange.name})
    ensures PressesWithin(ct + lt + vt + tt, TranslationButtons)
  {
  }

  lemma PartsBalanced(ct: seq<Event>, lt: seq<Event>, vt: seq<Event>, tt: seq<Event>)
    requires ForwardPart(ct) && AxisPart(YRange, lt) && AxisPart(ZRange, vt) && ForwardPart(tt)
    ensures Balanced(YRange, ct + lt + vt + tt) && Balanced(ZRange, ct + lt + vt + tt)
  {
    OffsetButtonsApart();
    UntouchedIsBalanced(YRange, ct, Buttons(XRange));
    UntouchedIsBalanced(ZRange, ct, Buttons(XRange));
    UntouchedIsBalanced(ZRange, lt, Buttons(YRange));
    UntouchedIsBalanced(YRange, vt, Buttons(ZRange));
    UntouchedIsBalanced(YRange, tt, Buttons(XRange));
    UntouchedIsBalanced(ZRange, tt, Buttons(XRange));
    BalancedAppend(YRange, ct, lt);
    BalancedAppend(ZRange, ct, lt);
    BalancedAppend(YRange, ct + lt, vt);
    BalancedAppend(ZRange, ct + lt, vt);
    BalancedAppend(YRange, ct + lt + vt, tt);
    BalancedAppend(ZRange, ct + lt + vt, tt);
  }

  /** Each part of an iteration body has the events of its kind. */
  lemma BodyParts(s: Sensor, x: real, rate: real)
    ensures var b := ApproachBody(s, x, rate);
            ForwardPart(b.correction.trace) && AxisPart(YRange, b.lateral.trace)
            && AxisPart(ZRange, b.vertical.trace) && ForwardPart(b.thrust)
  {
    var b := ApproachBody(s, x, rate);
    assert ForwardPart(b.correction.trace) by {
      assert {CorrectionButton(BandOf(x))} <= Buttons(XRange);
    }
  }

  /** An iteration body reads only the rate and the y and z ranges, presses only
      translation buttons, and leaves the y and z controls balanced. */
  lemma BodyShape(s: Sensor, x: real, rate: real)
    ensures var b := ApproachBody(s, x, rate);
            && ReadsOnly(b.Trace(), {RateChannel, YRange.name, ZRange.name})
            && PressesWithin(b.Trace(), TranslationButtons)
            && Balanced(YRange, b.Trace()) && Balanced(ZRange, b.Trace())
  {
    var b := ApproachBody(s, x, rate);
    BodyParts(s, x, rate);
    PartsShape(b.correction.trace, b.lateral.trace, b.vertical.trace, b.thrust);
    PartsBalanced(b.correction.trace, b.lateral.trace, b.vertical.trace, b.thrust);
  }

  lemma PartsForward(band: Band, ct: seq<Event>, lt: seq<Event>, vt: seq<Event>, tt: seq<Event>)
    requires PressesWithin(ct, {CorrectionButton(band)}) && (band == Coast ==> ct == [])
    requires AxisPart(YRange, lt) && AxisPart(ZRange, vt)
    requires tt == [] || tt == [Press(XRange.increaseButton)]
    ensures band != Accelerate ==> multiset(ct + lt + vt + tt)[Press(XRange.increaseButton)] == |tt|
    ensures band != Decelerate ==> multiset(ct + lt + vt + tt)[Press(XRange.decreaseButton)] == 0
  {
    OffsetButtonsApart();
    UntouchedIsBalanced(XRange, lt, Buttons(YRange));
    UntouchedIsBalanced(XRange, vt, Buttons(ZRange));
    if band != Accelerate {
      assert Press(XRange.increaseButton) !in ct;
    }
    if band != Decelerate {
      assert Press(XRange.decreaseButton) !in ct;
      assert Press(XRange.decreaseButton) !in tt;
    }
  }

  /** Outside the far band the forward button is pressed at most once per
      iteration, and only as the terminal thrust; outside the near band the
      backward button is never pressed. */
  lemma BodyForwardPresses(s: Sensor, x: real, rate: real)
    ensures var b := ApproachBody(s, x, rate);
            && (x <= FarRange ==> multiset(b.Trace())[Press(XRange.increaseButton)] == |b.thrust|)
            && (x >= NearRange ==> multiset(b.Trace())[Press(XRange.decreaseButton)] == 0)
            && (b.thrust != [] <==> b.Ok() && TerminalThrust(x, LastReadOf(b.correction.trace, RateChannel, rate)))
  {
    var b := ApproachBody(s, x, rate);
    BodyParts(s, x, rate);
    PartsForward(BandOf(x), b.correction.trace, b.lateral.trace, b.vertical.trace, b.thrust);
  }

  /** What one whole iteration (the x and rate reads, then the body) satisfies,
      as seen from the loop: it consumes the sensor up to `mid`, stays within
      the approach's channels and buttons, keeps y and z balanced, and its last
      x read (it has one) is `x`. */
  predicate PassRun(s: Sensor, mid: Sensor, xValue: real, x: real, pass: seq<Event>)
  {
    && Consumed(s, mid, pass) && |pass| > 0
    && ReadsOnly(pass, ApproachChannels) && PressesWithin(pass, TranslationButtons)
    && Balanced(YRange, pass) && Balanced(ZRange, pass)
    && LastReadOf(pass, XRange.name, xValue) == x
  }

  /** What every run of the approach loop entered with x reading `xValue` satisfies. */
  predicate LoopRun(s: Sensor, xValue: real, r: Run)
  {
    && Consumed(s, r.rest, r.trace)
    && ReadsOnly(r.trace, ApproachChannels) && PressesWithin(r.trace, TranslationButtons)
    && Balanced(YRange, r.trace) && Balanced(ZRange, r.trace)
    && (xValue <= ArrivalRange ==> r == Run(true, s, []))
    && (r.ok ==> LastReadOf(r.trace, XRange.name, xValue) <= ArrivalRange)
    && (!r.ok ==> r.rest.numbers == [] || r.rest.classes == [])
  }

  /** The head of an iteration: the x read and the rate read. */
  function IterationHead(s: Sensor): seq<Event>
    requires |s.numbers| >= 2
  {
    [Read(XRange.name, s.numbers[0]), Read(RateChannel, s.numbers[1])]
  }

  /** The body of an iteration, after its head. */
  function IterationBody(s: Sensor): Body
    requires |s.numbers| >= 2
  {
    ApproachBody(s.AfterRead().AfterRead(), s.numbers[0], s.numbers[1])
  }

  lemma HeadFacts(s: Sensor, xValue: real, body: seq<Event>)
    requires |s.numbers| >= 2
    requires ReadsOnly(body, {RateChannel, YRange.name, ZRange.name})
    ensures ReadsOnly(IterationHead(s) + body, ApproachChannels)
    ensures LastReadOf(IterationHead(s) + body, XRange.name, xValue) == s.numbers[0]
    ensures Balanced(YRange, IterationHead(s)) && Balanced(ZRange, IterationHead(s))
    ensures PressesWithin(IterationHead(s), {})
  {
    var head := IterationHead(s);
    LastReadOfAppend(head, body, XRange.name, xValue);
    LastReadOfUnread(body, XRange.name, LastReadOf(head, XRange.name, xValue));
    assert head[..1] == [Read(XRange.name, s.numbers[0])];
    assert LastReadOf(head, XRange.name, xValue) == s.numbers[0];
  }

  /** A whole iteration, seen from the loop. */
  lemma IterationFacts(s: Sensor, xValue: real)
    requires |s.numbers| >= 2
    ensures var b := IterationBody(s);
            && PassRun(s, b.Rest(), xValue, s.numbers[0], IterationHead(s) + b.Trace())
            && |b.Rest().numbers| < |s.numbers|
            && (!b.Ok() ==> b.Rest().numbers == [] || b.Rest().classes == [])
  {
    var b := IterationBody(s);
    var mid := s.AfterRead().AfterRead();
    assert BodyFacts(mid, b.Rest(), b.Trace()) by {
      BodyConsumed(mid, s.numbers[0], s.numbers[1]);
      BodyShape(mid, s.numbers[0], s.numbers[1]);
    }
    HeadPass(s, xValue, b.Rest(), b.Trace());
    BodyConsumed(mid, s.numbers[0], s.numbers[1]);
  }

  /** What the loop needs to know of an iteration body. */
  predicate BodyFacts(s: Sensor, rest: Sensor, body: seq<Event>)
  {
    && Consumed(s, rest, body)
    && ReadsOnly(body, {RateChannel, YRange.name, ZRange.name}) && PressesWithin(body, TranslationButtons)
    && Balanced(YRange, body) && Balanced(ZRange, body)
  }

  /** The head of an iteration in front of its body. */
  lemma HeadPass(s: Sensor, xValue: real, rest: Sensor, body: seq<Event>)
    requires |s.numbers| >= 2
    requires BodyFacts(s.AfterRead().AfterRead(), rest, body)
    ensures PassRun(s, rest, xValue, s.numbers[0], IterationHead(s) + body)
  {
    var head := IterationHead(s);
    ConsumedTwoReads(s, XRange.name, RateChannel);
    ConsumedChain(s, s.AfterRead().AfterRead(), rest, head, body);
    HeadFacts(s, xValue, body);
    PressesOnlyPass(head, body, [], TranslationButtons);
    BalancedAppend(YRange, head, body);
    BalancedAppend(ZRange, head, body);
    assert head + body + [] == head + body;
  }

  /** An iteration in front of the rest of the loop keeps the loop's properties. */
  lemma LoopPass(s: Sensor, mid: Sensor, xValue: real, x: real, pass: seq<Event>, rest: Run)
    requires xValue > ArrivalRange
    requires PassRun(s, mid, xValue, x, pass)
    requires LoopRun(mid, x, rest)
    ensures LoopRun(s, xValue, Run(rest.ok, rest.rest, pass + rest.trace))
  {
    ConsumedChain(s, mid, rest.rest, pass, rest.trace);
    BalancedAppend(YRange, pass, rest.trace);
    BalancedAppend(ZRange, pass, rest.trace);
    LastReadOfAppend(pass, rest.trace, XRange.name, xValue);
  }

  /** An iteration that ended abnormally ends the loop. */
  lemma LoopStuck(s: Sensor, mid: Sensor, xValue: real, x: real, pass: seq<Event>)
    requires xValue > ArrivalRange
    requires PassRun(s, mid, xValue, x, pass)
    requires mid.numbers == [] || mid.classes == []
    ensures LoopRun(s, xValue, Run(false, mid, pass))
  {
  }

  /** The loop's exits before an iteration: the last x read was within reach,
      or the sensor cannot answer the next iteration's two reads. */
  lemma LoopStops(s: Sensor, xValue: real)
    requires xValue <= ArrivalRange || |s.numbers| < 2
    ensures xValue <= ArrivalRange ==> LoopRun(s, xValue, Run(true, s, []))
    ensures xValue > ArrivalRange && |s.numbers| == 0 ==> LoopRun(s, xValue, Run(false, s, []))
    ensures xValue > ArrivalRange && |s.numbers| == 1 ==>
              LoopRun(s, xValue, Run(false, s.AfterRead(), [Read(XRange.name, s.numbers[0])]))
  {
    if xValue > ArrivalRange && |s.numbers| == 1 {
      ConsumedRead(s, XRange.name);
    }
  }

  /** The approach loop `while (xValue > 0.4)`. The condition tests the x read
      of the previous iteration: the body reads x afresh and runs to its end
      even when that fresh read is already within reach. */
  function ApproachLoop(s: Sensor, xValue: real): (r: Run)
    ensures LoopRun(s, xValue, r)
    decreases |s.numbers|
  {
    if xValue <= ArrivalRange || |s.numbers| < 2 then
      LoopStops(s, xValue);
      if xValue <= ArrivalRange then Run(true, s, [])
      else if |s.numbers| == 0 then Run(false, s, [])
      else Run(false, s.AfterRead(), [Read(XRange.name, s.numbers[0])])
    else
      var b := IterationBody(s);
      IterationFacts(s, xValue);
      if !b.Ok() then
        LoopStuck(s, b.Rest(), xValue, s.numbers[0], IterationHead(s) + b.Trace());
        Run(false, b.Rest(), IterationHead(s) + b.Trace())
      else
        var rest := ApproachLoop(b.Rest(), s.numbers[0]);
        LoopPass(s, b.Rest(), xValue, s.numbers[0], IterationHead(s) + b.Trace(), rest);
        Run(rest.ok, rest.rest, IterationHead(s) + b.Trace() + rest.trace)
  }

  /** What every run of the approach (the initial x read, then the loop) satisfies. */
  ghost predicate ApproachRun(s: Sensor, r: Run)
  {
    && Consumed(s, r.rest, r.trace)
    && ReadsOnly(r.trace, ApproachChannels) && PressesWithin(r.trace, TranslationButtons)
    && Balanced(YRange, r.trace) && Balanced(ZRange, r.trace)
    && (r.ok ==> forall d: real :: LastReadOf(r.trace, XRange.name, d) <= ArrivalRange)
    && (!r.ok ==> r.rest.numbers == [] || r.rest.classes == [])
  }

  lemma ApproachStart(s: Sensor, loop: Run)
    requires |s.numbers| > 0
    requires LoopRun(s.AfterRead(), s.numbers[0], loop)
    ensures ApproachRun(s, Run(loop.ok, loop.rest, [Read(XRange.name, s.numbers[0])] + loop.trace))
  {
    var head := [Read(XRange.name, s.numbers[0])];
    ConsumedRead(s, XRange.name);
    ConsumedChain(s, s.AfterRead(), loop.rest, head, loop.trace);
    BalancedAppend(YRange, head, loop.trace);
    BalancedAppend(ZRange, head, loop.trace);
    forall d: real
      ensures LastReadOf(head + loop.trace, XRange.name, d) == LastReadOf(loop.trace, XRange.name, s.numbers[0])
    {
      LastReadOfAppend(head, loop.trace, XRange.name, d);
      assert LastReadOf(head, XRange.name, d) == s.numbers[0];
    }
  }

  /** The approach: read x once, then loop while the last x read exceeds 0.4. */
  function Approach(s: Sensor): (r: Run)
    ensures ApproachRun(s, r)
    ensures |s.numbers| > 0 ==> var loop := ApproachLoop(s.AfterRead(), s.numbers[0]);
                                r == Run(loop.ok, loop.rest, [Read(XRange.name, s.numbers[0])] + loop.trace)
    ensures |s.numbers| > 0 && s.numbers[0] <= ArrivalRange ==> r == Run(true, s.AfterRead(), [Read(XRange.name, s.numbers[0])])
  {
    if |s.numbers| == 0 then Run(false, s, [])
    else
      var loop := ApproachLoop(s.AfterRead(), s.numbers[0]);
      ApproachStart(s, loop);
      Run(loop.ok, loop.rest, [Read(XRange.name, s.numbers[0])] + loop.trace)
  }

  /** Speeding up from rest: the first read of -2.0 is already fast enough,
      so the loop stops there and does not press again. */
  lemma CorrectionStopsAtFirstFastRate()
    ensures Correct(Sensor([-2.0, -3.0], []), Accelerate, 0.0)
         == Run(true, Sensor([-3.0], []), [Press(XRange.increaseButton), Read(RateChannel, -2.0)])
  {
    assert Sensor([-2.0, -3.0], []).AfterRead() == Sensor([-3.0], []);
  }

  /** A correction whose rate is already right does nothing. */
  lemma CorrectIdle(s: Sensor, band: Band, rate: real)
    requires !KeepsCorrecting(band, rate)
    ensures Correct(s, band, rate) == Run(true, s, [])
  {
  }

  /** An equalizer whose first guard reads exactly zero stops after that read. */
  lemma AxisAlreadyZero(c: DockingControl, s: Sensor)
    requires |s.numbers| > 0 && s.numbers[0] == 0.0
    ensures EqualizeAxisControl(c, s) == Run(true, s.AfterRead(), [Read(c.name, 0.0)])
  {
  }

  /** A loop entered with x already within reach does nothing. */
  lemma LoopArrived(s: Sensor, xValue: real)
    requires xValue <= ArrivalRange
    ensures ApproachLoop(s, xValue) == Run(true, s, [])
  {
  }

  /** The iteration that reads x = 0.3 and rate 0.0: no correction is due,
      y and z read zero at once, and there is no terminal thrust. With
      `OneMoreIteration`, a loop entered after an x read above 0.4 runs all
      of it (the rate read, the y and z reads) before stopping. */
  lemma WithinReachBody()
    ensures IterationHead(Sensor([0.3, 0.0, 0.0, 0.0], [])) == [Read(XRange.name, 0.3), Read(RateChannel, 0.0)]
    ensures IterationBody(Sensor([0.3, 0.0, 0.0, 0.0], []))
         == Body(Run(true, Sensor([0.0, 0.0], []), []),
                 Run(true, Sensor([0.0], []), [Read(YRange.name, 0.0)]),
                 Run(true, Sensor([], []), [Read(ZRange.name, 0.0)]),
                 [])
  {
    var mid := Sensor([0.0, 0.0], []);
    assert Sensor([0.3, 0.0, 0.0, 0.0], []).AfterRead().AfterRead() == mid;
    CorrectIdle(mid, BandOf(0.3), 0.0);
    AxisAlreadyZero(YRange, mid);
    AxisAlreadyZero(ZRange, Sensor([0.0], []));
    assert !TerminalThrust(0.3, 0.0);
  }

  /** One unrolling of the loop at an iteration that ends normally. */
  lemma LoopUnrolls(s: Sensor, xValue: real)
    requires xValue > ArrivalRange && |s.numbers| >= 2 && IterationBody(s).Ok()
    ensures var rest := ApproachLoop(IterationBody(s).Rest(), s.numbers[0]);
            ApproachLoop(s, xValue) == Run(rest.ok, rest.rest, IterationHead(s) + IterationBody(s).Trace() + rest.trace)
  {
  }

  /** The loop body runs to its end even when its fresh x read is already
      within reach; only the next test of the loop condition stops the loop. */
  lemma OneMoreIteration(s: Sensor, xValue: real)
    requires xValue > ArrivalRange && |s.numbers| >= 2 && s.numbers[0] <= ArrivalRange
    requires IterationBody(s).Ok()
    ensures ApproachLoop(s, xValue)
         == Run(true, IterationBody(s).Rest(), IterationHead(s) + IterationBody(s).Trace())
  {
    var b := IterationBody(s);
    var pass := IterationHead(s) + b.Trace();
    var rest := ApproachLoop(b.Rest(), s.numbers[0]);
    assert rest == Run(true, b.Rest(), []) by {
      LoopArrived(b.Rest(), s.numbers[0]);
    }
    assert ApproachLoop(s, xValue) == Run(rest.ok, rest.rest, pass + rest.trace) by {
      LoopUnrolls(s, xValue);
    }
    assert pass + rest.trace == pass;
  }

  /** The outcome of `startDockingProcess`, phase by phase: rotation, the
      lateral (y) and vertical (z) offsets, then the approach. Each phase runs
      only if the previous ones ended normally. */
  datatype Docking = Docking(rotation: Rotation, lateral: Run, vertical: Run, approach: Run)
  {
    predicate Ok() { rotation.Ok() && lateral.ok && vertical.ok && approach.ok }
    function Rest(): Sensor { approach.rest }
    function Trace(): seq<Event>
    {
      rotation.pair.trace + rotation.roll.trace + lateral.trace + vertical.trace + approach.trace
    }
  }

  /** How the phases of the docking chain. */
  ghost predicate DockingRun(s: Sensor, d: Docking)
  {
    && ControlsRun(s, d.rotation)
    && (d.rotation.Ok() ==> AxisRun(YRange, d.rotation.Rest(), d.lateral))
    && (!d.rotation.Ok() ==> d.lateral == Run(false, d.rotation.Rest(), []))
    && (d.rotation.Ok() && d.lateral.ok ==> AxisRun(ZRange, d.lateral.rest, d.vertical))
    && (!(d.rotation.Ok() && d.lateral.ok) ==> d.vertical == Run(false, d.lateral.rest, []))
    && (d.rotation.Ok() && d.lateral.ok && d.vertical.ok ==>
          ApproachRun(d.vertical.rest, d.approach) && d.approach == Approach(d.vertical.rest))
    && (!(d.rotation.Ok() && d.lateral.ok && d.vertical.ok) ==> d.approach == Run(false, d.vertical.rest, []))
  }

  /** `startDockingProcess`: equalize pitch, yaw and roll, then y, then z, then approach. */
  function StartDockingProcess(s: Sensor): (d: Docking)
    ensures DockingRun(s, d)
  {
    var rotation := EqualizeControls(s);
    if !rotation.Ok() then
      Docking(rotation, Run(false, rotation.Rest(), []), Run(false, rotation.Rest(), []), Run(false, rotation.Rest(), []))
    else
      var lateral := EqualizeAxisControl(YRange, rotation.Rest());
      if !lateral.ok then
        Docking(rotation, lateral, Run(false, lateral.rest, []), Run(false, lateral.rest, []))
      else
        var vertical := EqualizeAxisControl(ZRange, lateral.rest);
        if !vertical.ok then
          Docking(rotation, lateral, vertical, Run(false, vertical.rest, []))
        else
          Docking(rotation, lateral, vertical, Approach(vertical.rest))
  }

  lemma ConsumedFour(s: Sensor, m1: Sensor, m2: Sensor, m3: Sensor, rest: Sensor,
                     a: seq<Event>, b: seq<Event>, c: seq<Event>, e: seq<Event>)
    requires Consumed(s, m1, a) && Consumed(m1, m2, b) && Consumed(m2, m3, c) && Consumed(m3, rest, e)
    ensures Consumed(s, rest, a + b + c + e)
  {
    ConsumedChain(s, m1, m2, a, b);
    ConsumedChain(s, m2, m3, a + b, c);
    ConsumedChain(s, m3, rest, a + b + c, e);
  }

  /** Each phase of the procedure consumes the sensor where the previous one stopped. */
  predicate PhasesConsumed(s: Sensor, d: Docking)
  {
    && Consumed(s, d.rotation.pair.rest, d.rotation.pair.trace)
    && Consumed(d.rotation.pair.rest, d.rotation.Rest(), d.rotation.roll.trace)
    && Consumed(d.rotation.Rest(), d.lateral.rest, d.lateral.trace)
    && Consumed(d.lateral.rest, d.vertical.rest, d.vertical.trace)
    && Consumed(d.vertical.rest, d.Rest(), d.approach.trace)
  }

  /** A phase that ran consumed its part of the sensor; one that was skipped consumed nothing. */
  lemma PhaseConsumed(s: Sensor, r: Run, ran: bool)
    requires ran ==> Consumed(s, r.rest, r.trace)
    requires !ran ==> r == Run(false, s, [])
    ensures Consumed(s, r.rest, r.trace)
  {
  }

  lemma DockingPhasesConsumed(s: Sensor)
    ensures PhasesConsumed(s, StartDockingProcess(s))
  {
    var d := StartDockingProcess(s);
    var rot := d.rotation;
    assert DockingRun(s, d);
    assert Consumed(s, rot.pair.rest, rot.pair.trace);
    PhaseConsumed(rot.pair.rest, rot.roll, rot.pair.ok);
    PhaseConsumed(rot.Rest(), d.lateral, rot.Ok());
    PhaseConsumed(d.lateral.rest, d.vertical, rot.Ok() && d.lateral.ok);
    PhaseConsumed(d.vertical.rest, d.approach, rot.Ok() && d.lateral.ok && d.vertical.ok);
  }

  lemma PhasesChain(s: Sensor, d: Docking)
    requires PhasesConsumed(s, d)
    ensures Consumed(s, d.Rest(), d.Trace())
  {
    var rot := d.rotation;
    ConsumedChain(s, rot.pair.rest, rot.Rest(), rot.pair.trace, rot.roll.trace);
    ConsumedFour(s, rot.Rest(), d.lateral.rest, d.vertical.rest, d.Rest(),
                 rot.pair.trace + rot.roll.trace, d.lateral.trace, d.vertical.trace, d.approach.trace);
  }

  /** The whole procedure consumes the sensor in order. */
  lemma DockingConsumed(s: Sensor)
    ensures var d := StartDockingProcess(s);
            Consumed(s, d.Rest(), d.Trace())
  {
    DockingPhasesConsumed(s);
    PhasesChain(s, StartDockingProcess(s));
  }

  /** The procedure stops early only when the sensor is exhausted. */
  lemma DockingStops(s: Sensor)
    ensures var d := StartDockingProcess(s);
            !d.Ok() ==> d.Rest().numbers == [] || d.Rest().classes == []
  {
    ControlsFacts(s);
  }

  /** The events of the pitch/yaw loop: balanced presses of the pitch and yaw buttons. */
  predicate PairPart(t: seq<Event>)
  {
    PressesWithin(t, Buttons(Pitch) + Buttons(Yaw)) && Balanced(Pitch, t) && Balanced(Yaw, t)
  }

  /** The events of the approach: translation presses, y and z balanced. */
  predicate ApproachPart(t: seq<Event>)
  {
    PressesWithin(t, TranslationButtons) && Balanced(YRange, t) && Balanced(ZRange, t)
  }

  /** Each phase of the procedure has the events of its kind. */
  lemma DockingParts(s: Sensor)
    ensures var d := StartDockingProcess(s);
            && PairPart(d.rotation.pair.trace) && AxisPart(Roll, d.rotation.roll.trace)
            && AxisPart(YRange, d.lateral.trace) && AxisPart(ZRange, d.vertical.trace)
            && ApproachPart(d.approach.trace)
  {
  }

  /** Balance of each part carries over to the whole procedure. */
  lemma BalancedThroughout(c: DockingControl, pt: seq<Event>, rt: seq<Event>, lt: seq<Event>, vt: seq<Event>, at: seq<Event>)
    requires Balanced(c, pt) && Balanced(c, rt) && Balanced(c, lt) && Balanced(c, vt) && Balanced(c, at)
    ensures Balanced(c, pt + rt + lt + vt + at)
  {
    BalancedAppend(c, pt, rt);
    BalancedAppend(c, pt + rt, lt);
    BalancedAppend(c, pt + rt + lt, vt);
    BalancedAppend(c, pt + rt + lt + vt, at);
  }

  /** A steering control is balanced over the whole procedure: its own part
      balances it, and every other part leaves its buttons alone. */
  lemma SteeringBalancedThroughout(c: DockingControl, pt: seq<Event>, rt: seq<Event>, lt: seq<Event>, vt: seq<Event>, at: seq<Event>)
    requires c in {Pitch, Yaw, Roll, YRange, ZRange}
    requires PairPart(pt) && AxisPart(Roll, rt) && AxisPart(YRange, lt) && AxisPart(ZRange, vt) && ApproachPart(at)
    ensures Balanced(c, pt + rt + lt + vt + at)
  {
    RotationButtonsApart();
    OffsetButtonsApart();
    assert Balanced(c, pt) by {
      if c != Pitch && c != Yaw {
        UntouchedIsBalanced(c, pt, Buttons(Pitch) + Buttons(Yaw));
      }
    }
    assert Balanced(c, rt) by {
      if c != Roll {
        UntouchedIsBalanced(c, rt, Buttons(Roll));
      }
    }
    assert Balanced(c, lt) by {
      if c != YRange {
        UntouchedIsBalanced(c, lt, Buttons(YRange));
      }
    }
    assert Balanced(c, vt) by {
      if c != ZRange {
        UntouchedIsBalanced(c, vt, Buttons(ZRange));
      }
    }
    assert Balanced(c, at) by {
      if c != YRange && c != ZRange {
        UntouchedIsBalanced(c, at, TranslationButtons);
      }
    }
    BalancedThroughout(c, pt, rt, lt, vt, at);
  }

  lemma ForwardOnlyInApproach(pt: seq<Event>, rt: seq<Event>, lt: seq<Event>, vt: seq<Event>, at: seq<Event>)
    requires PairPart(pt) && AxisPart(Roll, rt) && AxisPart(YRange, lt) && AxisPart(ZRange, vt)
    ensures multiset(pt + rt + lt + vt + at)[Press(XRange.increaseButton)] == multiset(at)[Press(XRange.increaseButton)]
    ensures multiset(pt + rt + lt + vt + at)[Press(XRange.decreaseButton)] == multiset(at)[Press(XRange.decreaseButton)]
  {
    var before := pt + rt + lt + vt;
    assert PressesWithin(before, SteeringButtons);
    ForwardButtonsApart();
    UntouchedIsBalanced(XRange, before, SteeringButtons);
  }

  /** Every control but x ends the procedure with as many presses up as down,
      whether or not the procedure ends normally, and the x buttons are pressed
      only during the approach: attitude and offsets are never traded for
      forward motion. */
  lemma DockingBalanced(s: Sensor)
    ensures var d := StartDockingProcess(s);
            && Balanced(Pitch, d.Trace()) && Balanced(Yaw, d.Trace()) && Balanced(Roll, d.Trace())
            && Balanced(YRange, d.Trace()) && Balanced(ZRange, d.Trace())
            && multiset(d.Trace())[Press(XRange.increaseButton)] == multiset(d.approach.trace)[Press(XRange.increaseButton)]
            && multiset(d.Trace())[Press(XRange.decreaseButton)] == multiset(d.approach.trace)[Press(XRange.decreaseButton)]
  {
    var d := StartDockingProcess(s);
    var pt, rt, lt, vt, at := d.rotation.pair.trace, d.rotation.roll.trace, d.lateral.trace, d.vertical.trace, d.approach.trace;
    DockingParts(s);
    SteeringBalancedThroughout(Pitch, pt, rt, lt, vt, at);
    SteeringBalancedThroughout(Yaw, pt, rt, lt, vt, at);
    SteeringBalancedThroughout(Roll, pt, rt, lt, vt, at);
    SteeringBalancedThroughout(YRange, pt, rt, lt, vt, at);
    SteeringBalancedThroughout(ZRange, pt, rt, lt, vt, at);
    ForwardOnlyInApproach(pt, rt, lt, vt, at);
  }

  /** A normal end has read pitch and yaw, then roll, then y, then z as exactly
      zero, and its last x read is within reach of the port. */
  lemma DockingArrives(s: Sensor)
    ensures var d := StartDockingProcess(s);
            d.Ok() ==>
              && ZeroGuardLast(d.rotation.pair.trace)
              && d.rotation.roll.trace[|d.rotation.roll.trace| - 1] == Read(Roll.name, 0.0)
              && d.lateral.trace[|d.lateral.trace| - 1] == Read(YRange.name, 0.0)
              && d.vertical.trace[|d.vertical.trace| - 1] == Read(ZRange.name, 0.0)
              && LastReadOf(d.Trace(), XRange.name, FarRange) <= ArrivalRange
  {
    var d := StartDockingProcess(s);
    if d.Ok() {
      var before := d.rotation.pair.trace + d.rotation.roll.trace + d.lateral.trace + d.vertical.trace;
      LastReadOfAppend(before, d.approach.trace, XRange.name, FarRange);
    }
  }
}

=== FILE: session.dfy ===
/**
 * The environment of the docking script. The page is an abstract sensor:
 * the k-th numeric read returns the k-th entry of `numbers` whatever the
 * channel, and the k-th read of the precision-status class attribute
 * returns the k-th entry of `classes`. A read past the end is the script's
 * uncaught lookup or parse failure, which ends the whole procedure.
 */
module Session {
  import opened Traces

  datatype Sensor = Sensor(numbers: seq<real>, classes: seq<string>)
  {
    /** The sensor after one numeric read. */
    function AfterRead(): (s: Sensor)
      requires |numbers| > 0
      ensures s.numbers == numbers[1..] && s.classes == classes
    {
      this.(numbers := numbers[1..])
    }

    /** The sensor after one status read. */
    function AfterObserve(): (s: Sensor)
      requires |classes| > 0
      ensures s.numbers == numbers && s.classes == classes[1..]
    {
      this.(classes := classes[1..])
    }
  }

  /** What a procedure did: whether it ran to its normal end, the sensor
      left for whatever comes next, and the events it produced. */
  datatype Run = Run(ok: bool, rest: Sensor, trace: seq<Event>)

  /** The trace's observations are exactly the answers `s` gave before `rest`. */
  predicate Consumed(s: Sensor, rest: Sensor, t: seq<Event>)
  {
    && s.numbers == Readings(t) + rest.numbers
    && s.classes == Statuses(t) + rest.classes
  }

  lemma ConsumedChain(s: Sensor, mid: Sensor, rest: Sensor, a: seq<Event>, b: seq<Event>)
    requires Consumed(s, mid, a) && Consumed(mid, rest, b)
    ensures Consumed(s, rest, a + b)
  {
    ObservationsAppend(a, b);
  }

  lemma ConsumedNothing(s: Sensor, t: seq<Event>)
    requires ActionsOnly(t)
    ensures Consumed(s, s, t)
  {
    ActionsObserveNothing(t);
  }

  lemma ConsumedRead(s: Sensor, channel: string)
    requires |s.numbers| > 0
    ensures Consumed(s, s.AfterRead(), [Read(channel, s.numbers[0])])
  {
    assert Readings([Read(channel, s.numbers[0])]) == [s.numbers[0]];
  }

  /** Two numeric reads in a row. */
  lemma ConsumedTwoReads(s: Sensor, first: string, second: string)
    requires |s.numbers| >= 2
    ensures Consumed(s, s.AfterRead().AfterRead(), [Read(first, s.numbers[0]), Read(second, s.numbers[1])])
  {
    ConsumedRead(s, first);
    ConsumedRead(s.AfterRead(), second);
    ConsumedChain(s, s.AfterRead(), s.AfterRead().AfterRead(),
                  [Read(first, s.numbers[0])], [Read(second, s.numbers[1])]);
    assert [Read(first, s.numbers[0])] + [Read(second, s.numbers[1])]
        == [Read(first, s.numbers[0]), Read(second, s.numbers[1])];
  }

  /** Observations, then actions that observe nothing, then a further run. */
  lemma ConsumedPass(s: Sensor, mid: Sensor, observed: seq<Event>, actions: seq<Event>, rest: Sensor, t: seq<Event>)
    requires Consumed(s, mid, observed) && ActionsOnly(actions) && Consumed(mid, rest, t)
    ensures Consumed(s, rest, observed + actions + t)
  {
    ConsumedNothing(mid, actions);
    ConsumedChain(s, mid, mid, observed, actions);
    ConsumedChain(s, mid, rest, observed + actions, t);
  }

  lemma ConsumedObserve(s: Sensor)
    requires |s.classes| > 0
    ensures Consumed(s, s.AfterObserve(), [Observe(s.classes[0])])
  {
    assert Statuses([Observe(s.classes[0])]) == [s.classes[0]];
  }

  /** Two numeric reads, then one status read: the observations of a translational pass. */
  lemma ConsumedTwoReadsObserve(s: Sensor, first: string, second: string)
    requires |s.numbers| >= 2 && |s.classes| >= 1
    ensures Consumed(s, s.AfterRead().AfterRead().AfterObserve(),
                     [Read(first, s.numbers[0]), Read(second, s.numbers[1]), Observe(s.classes[0])])
  {
    var pair := [Read(first, s.numbers[0]), Read(second, s.numbers[1])];
    ConsumedTwoReads(s, first, second);
    ConsumedObserve(s.AfterRead().AfterRead());
    ConsumedChain(s, s.AfterRead().AfterRead(), s.AfterRead().AfterRead().AfterObserve(),
                  pair, [Observe(s.classes[0])]);
    assert pair + [Observe(s.classes[0])]
        == [Read(first, s.numbers[0]), Read(second, s.numbers[1]), Observe(s.classes[0])];
  }
}

=== FILE: text.dfy ===
/**
 * String handling of the docking script: Java's `String.replace(target, "")`,
 * the unit-suffix cleanup applied to every sensor label before it is parsed,
 * and the case-insensitive comparison of the precision-mode status.
 */
module Text {

  /** Java's `s.replace(target, "")`: scans left to right and drops every
      non-overlapping occurrence of `target`. An empty target leaves `s` as it is. */
  function RemoveAll(s: string, target: string): (r: string)
    ensures |r| <= |s|
    ensures forall ch :: ch in r ==> ch in s
    decreases |s|
  {
    if |target| == 0 || |s| < |target| then s
    else if s[..|target|] == target then RemoveAll(s[|target|..], target)
    else [s[0]] + RemoveAll(s[1..], target)
  }

  /** The reference meaning of removing a one-character target: keep every other character. */
  function Without(s: string, c: char): (r: string)
  {
    if |s| == 0 then []
    else (if s[0] == c then [] else [s[0]]) + Without(s[1..], c)
  }

  lemma {:induction false} RemoveCharIsFilter(s: string, c: char)
    ensures RemoveAll(s, [c]) == Without(s, c)
    decreases |s|
  {
    if |s| > 0 {
      RemoveCharIsFilter(s[1..], c);
    }
  }

  lemma {:induction false} WithoutRemovesChar(s: string, c: char)
    ensures c !in Without(s, c)
    decreases |s|
  {
    if |s| > 0 {
      WithoutRemovesChar(s[1..], c);
    }
  }

  /** A target whose first character never occurs cannot match anywhere. */
  lemma {:induction false} RemoveAbsent(s: string, target: string)
    requires |target| > 0 && target[0] !in s
    ensures RemoveAll(s, target) == s
    decreases |s|
  {
    if |s| >= |target| {
      assert s[..|target|][0] == s[0];
      RemoveAbsent(s[1..], target);
    }
  }

  /** The degree mark as the page's text arrives in the source (a mis-decoded "°"). */
  const DegreeMark: string := "\U{00C2}\U{00B0}"
  const RateSuffix: string := "/s"
  const MetreSuffix: string := "m"

  /** The cleanup in `getValue`: degree mark, then "/s", then "m". */
  function StripUnits(text: string): (r: string)
  {
    RemoveAll(RemoveAll(RemoveAll(text, DegreeMark), RateSuffix), MetreSuffix)
  }

  /** The cleaned text never holds an 'm' and holds only characters of the label. */
  lemma StripUnitsRemovesMetre(text: string)
    ensures 'm' !in StripUnits(text)
    ensures |StripUnits(text)| <= |text|
    ensures forall ch :: ch in StripUnits(text) ==> ch in text
  {
    var t := RemoveAll(RemoveAll(text, DegreeMark), RateSuffix);
    RemoveCharIsFilter(t, 'm');
    WithoutRemovesChar(t, 'm');
  }

  /** A plain numeral (no 'Â', '/' or 'm') reaches the parser unchanged. */
  lemma StripUnitsKeepsNumerals(text: string)
    requires '\U{00C2}' !in text && '/' !in text && 'm' !in text
    ensures StripUnits(text) == text
  {
    RemoveAbsent(text, DegreeMark);
    RemoveAbsent(text, RateSuffix);
    RemoveAbsent(text, MetreSuffix);
  }

  /** Removing 'm' last can assemble a fresh "/s": the cleanup does not
      guarantee a text free of the rate suffix. */
  lemma StripUnitsCanLeaveRateSuffix()
    ensures StripUnits("/ms") == "/s"
  {
    assert RemoveAll("/ms", DegreeMark) == "/ms";
    assert RemoveAll("/ms", RateSuffix) == "/ms" by {
      RemoveAbsent("ms", RateSuffix);
    }
    assert RemoveAll("/ms", MetreSuffix) == "/s" by {
      assert RemoveAll("s", MetreSuffix) == "s";
      assert RemoveAll("ms", MetreSuffix) == "s";
    }
  }

  /** ASCII case folding, the part of `Character.toLowerCase` the page's mode names use. */
  function Lower(c: char): char
  {
    if 'A' <= c <= 'Z' then (c as int + 32) as char else c
  }

  /** Java's `a.equalsIgnoreCase(b)`: equal lengths and equal characters after case folding. */
  predicate EqualsIgnoreCase(a: string, b: string)
  {
    |a| == |b| && forall i :: 0 <= i < |a| ==> Lower(a[i]) == Lower(b[i])
  }

  lemma EqualsIgnoreCaseProperties(a: string, b: string, c: string)
    ensures EqualsIgnoreCase(a, a)
    ensures EqualsIgnoreCase(a, b) ==> EqualsIgnoreCase(b, a)
    ensures EqualsIgnoreCase(a, b) && EqualsIgnoreCase(b, c) ==> EqualsIgnoreCase(a, c)
    ensures EqualsIgnoreCase(a, b) ==> |a| == |b|
  {
  }
}

=== FILE: traces.dfy ===
/**
 * The observable behaviour of the docking script as a trace of events:
 * sensor readings and precision-status observations it made, button
 * presses, settle waits and precision toggles it issued.
 */
module Traces {

  datatype Event =
    | Read(channel: string, value: real)   // a numeric label read on the page element `channel`
    | Observe(status: string)              // the precision-status class attribute as read
    | Press(button: string)                // one click on the button with this CSS selector
    | Sleep(ms: int)                       // the settle wait inside a burst
    | Toggle                               // one click on the precision-translation toggle

  /** `n` copies of `e`. */
  function Repeat(e: Event, n: nat): (r: seq<Event>)
    ensures |r| == n
    ensures forall i :: 0 <= i < n ==> r[i] == e
  {
    if n == 0 then [] else [e] + Repeat(e, n - 1)
  }

  lemma {:induction false} RepeatCount(e: Event, n: nat, x: Event)
    ensures multiset(Repeat(e, n))[x] == if x == e then n else 0
  {
    if n > 0 {
      RepeatCount(e, n - 1, x);
    }
  }

  /** The trace holds only actions: no reading or observation. */
  predicate ActionsOnly(t: seq<Event>)
  {
    forall e :: e in t ==> !e.Read? && !e.Observe?
  }

  /** Every button pressed in `t` is one of `buttons`. */
  predicate PressesWithin(t: seq<Event>, buttons: set<string>)
  {
    forall e :: e in t && e.Press? ==> e.button in buttons
  }

  /** Every channel read in `t` is one of `channels`. */
  predicate ReadsOnly(t: seq<Event>, channels: set<string>)
  {
    forall e :: e in t && e.Read? ==> e.channel in channels
  }

  /** The numeric answers the trace received, in order. */
  function Readings(t: seq<Event>): seq<real>
  {
    if |t| == 0 then []
    else (if t[0].Read? then [t[0].value] else []) + Readings(t[1..])
  }

  /** The status observations the trace received, in order. */
  function Statuses(t: seq<Event>): seq<string>
  {
    if |t| == 0 then []
    else (if t[0].Observe? then [t[0].status] else []) + Statuses(t[1..])
  }

  lemma {:induction false} ReadingsAppend(a: seq<Event>, b: seq<Event>)
    ensures Readings(a + b) == Readings(a) + Readings(b)
    decreases |a|
  {
    if |a| == 0 {
      assert a + b == b;
    } else {
      var head := if a[0].Read? then [a[0].value] else [];
      assert (a + b)[0] == a[0];
      assert (a + b)[1..] == a[1..] + b;
      ReadingsAppend(a[1..], b);
      calc {
        Readings(a + b);
        head + Readings(a[1..] + b);
        head + (Readings(a[1..]) + Readings(b));
        (head + Readings(a[1..])) + Readings(b);
      }
    }
  }

  lemma {:induction false} StatusesAppend(a: seq<Event>, b: seq<Event>)
    ensures Statuses(a + b) == Statuses(a) + Statuses(b)
    decreases |a|
  {
    if |a| == 0 {
      assert a + b == b;
    } else {
      var head := if a[0].Observe? then [a[0].status] else [];
      assert (a + b)[0] == a[0];
      assert (a + b)[1..] == a[1..] + b;
      StatusesAppend(a[1..], b);
      calc {
        Statuses(a + b);
        head + Statuses(a[1..] + b);
        head + (Statuses(a[1..]) + Statuses(b));
        (head + Statuses(a[1..])) + Statuses(b);
      }
    }
  }

  lemma ObservationsAppend(a: seq<Event>, b: seq<Event>)
    ensures Readings(a + b) == Readings(a) + Readings(b)
    ensures Statuses(a + b) == Statuses(a) + Statuses(b)
  {
    ReadingsAppend(a, b);
    StatusesAppend(a, b);
  }

  lemma {:induction false} ActionsObserveNothing(t: seq<Event>)
    requires ActionsOnly(t)
    ensures Readings(t) == [] && Statuses(t) == []
    decreases |t|
  {
    if |t| > 0 {
      assert t[0] in t;
      ActionsObserveNothing(t[1..]);
    }
  }

  /** The value of the last read of `channel` in `t`, or `default` if there is none. */
  function LastReadOf(t: seq<Event>, channel: string, default: real): real
  {
    if |t| == 0 then default
    else if t[|t| - 1].Read? && t[|t| - 1].channel == channel then t[|t| - 1].value
    else LastReadOf(t[..|t| - 1], channel, default)
  }

  lemma {:induction false} LastReadOfAppend(a: seq<Event>, b: seq<Event>, channel: string, default: real)
    ensures LastReadOf(a + b, channel, default) == LastReadOf(b, channel, LastReadOf(a, channel, default))
    decreases |b|
  {
    if |b| == 0 {
      assert a + b == a;
    } else {
      assert (a + b)[..|a + b| - 1] == a + b[..|b| - 1];
      LastReadOfAppend(a, b[..|b| - 1], channel, default);
    }
  }

  lemma {:induction false} LastReadOfUnread(t: seq<Event>, channel: string, default: real)
    requires forall e :: e in t && e.Read? ==> e.channel != channel
    ensures LastReadOf(t, channel, default) == default
    decreases |t|
  {
    if |t| > 0 {
      assert t[|t| - 1] in t;
      assert forall e :: e in t[..|t| - 1] ==> e in t;
      LastReadOfUnread(t[..|t| - 1], channel, default);
    }
  }
}
